=== FILE: README.md ===
# GerenciadorReservas: the reservation admission and pricing engine in Dafny

This project models the core of GerenciadorReservas, an ASP.NET Core
service that books meeting rooms for clients. The model covers:

- **Pricing.** `Reserva.CalcularValores` bills hours times the hourly rate. A discount in
  (0, 30] % applies only while the booking lies in the future; any other discount is reset
  to 0.
- **Status.** `CalcularStatus` places a booking into one of four lifecycle labels, and the
  listing has a status filter for each label.
- **Overlap.** The double-booking test compares bookings of the same room.
- **Write endpoints.** These are the create, update, discount patch, payment toggle and delete
  endpoints of `ReservasController`. Each is a pure transition of a store
  `map<int, Reservation>`. It answers with a typed `Rejection` or a result, and every rejection
  hands the store back unchanged.
- **Reports.** These are the paginated listing, the revenue summary and the per-day chart series.
- **Legacy controller.** The older controller `Controller/ReservaController.cs` is its own
  module. Lemmas relate its create, listing, status ternary and discount patch to the main
  controller.
- **Clients.** The clients controller's lookup, partial update and guarded delete.

Representation:

- Instants are whole seconds on one UTC time line, with `HOUR = 3600` and `DAY = 86400`.
- Money, rates, discounts and hours are exact `real`s.
- The current instant is always an explicit `now` parameter.
- The key the database assigns to a new booking is an explicit `newId` parameter.

Modules, one per file:

| module | file | models |
|---|---|---|
| `Text` | text.dfy | `string.Trim()` (the .NET white-space set) and ASCII `ToLower()` |
| `Model` | model.dfy | `Reserva`, `Cliente`, the stores, `Result`/`Option`, `Rejection`, the data-annotation predicate `Valid` |
| `Pricing` | pricing.dfy | `CalcularValores` |
| `Status` | status.dfy | `CalcularStatus`, the status filters and the exact status-name match of `GetReservas` |
| `Overlap` | overlap.dfy | the room/interval conflict test |
| `Admission` | admission.dfy | `PostReserva`, `PutReserva`, `PatchDesconto`, `TogglePagamento`, `DeleteReserva` and the table invariant `Consistent` |
| `Listing` | listing.dfy | the `Where`/`OrderBy`/`Skip`/`Take` pipeline and page count of `GetReservas` |
| `Reporting` | reporting.dfy | `GetResumo` and `GetDadosGrafico` |
| `Legacy` | legacy.dfy | `CriarReserva`, `ListarReservas`, `AtualizarDescontoInline` |
| `Clients` | clients.dfy | `GetCliente`, `PutCliente`, `DeleteCliente` |

Modelling decisions:

- **Annotations run first.** Every action that takes a body runs under `[ApiController]`. An
  invalid body is therefore refused (`InvalidFields`) before the action's own checks.
- **Identity column.** The table has a SQL Server identity key, so an insert that carries an
  explicit non-zero id fails in the database. The create operations answer such a body with
  `StorageError` and leave the store unchanged. Otherwise the new booking is stored under
  `newId`.
- **The table invariant.** `Admission.Consistent` holds when three things are true:
  - every booking sits under its own positive key;
  - every booking carries the total its pricing computed;
  - no two bookings of one room intersect.

  The create, the corrected update, the discount patch, the payment toggle and the delete of
  the main controller preserve it, and so do the legacy create and the legacy discount patch.
  The update as written does not: it can leave two bookings of one room intersecting (see
  Findings). The client writes do not touch the reservation table.
- **The update's room.** The update checks the body's room for overlaps but never stores it
  (see Findings).
- **The chart window.** The chart always groups by day over a fixed window of 15 days either
  side of `now`.
- **The main create's overlap test.** It leaves out stored bookings that carry the body's own
  id; the legacy create leaves out none.
- **The discount annotation.** `[Range(0, 30)]` on the decimal `Desconto` is the integer form
  of the attribute. It converts the value with `Convert.ToInt32`, which rounds half to even,
  before comparing, so it accepts every discount in [-0.5, 30.5]. Pricing then resets a
  discount outside (0, 30] to 0.
- **Paging on SQL Server.** The listings run on EF Core against SQL Server (`Program.cs`).
  `Skip`/`Take` become `OFFSET`/`FETCH`. A page size of zero gives offset zero, and EF Core
  turns `Take(0)` into an empty query, so the listing answers an empty page whatever the page
  number. Otherwise the database refuses a negative fetch and a negative offset. So the listing
  fails (`QueryFailed`) exactly when the page size is negative, or positive with a page number
  below one. For page size zero the page count divides by zero; that count is left unspecified
  (see Left out).
- **`Cliente` has no `CpfCnpj`.** `Models/Cliente.cs` declares no `CpfCnpj` field, but the
  clients controller writes one. The model's `Client` carries the fields the controller uses.
- **Legacy pricing call.** The legacy controller calls a parameterless `CalcularValores()`,
  which `Models/Reserva.cs` does not declare. The model prices at the request's `now`.

## Model

| member | source | states |
|---|---|---|
| Text.Trim | Controller/ReservasController.cs:190-191 | the trimmed text is the infix of the input between a leading and a trailing run of white space. It is empty exactly when the input is all white space, and otherwise begins and ends with a non-white-space character. |
| Text.TrimIdempotent | Controller/ReservasController.cs:255-256 | trimming an already trimmed text changes nothing |
| Text.Lower | Controller/ReservaController.cs:70 | lower-casing keeps the length and folds each ASCII capital to its lower-case letter, leaving every other character alone |
| Text.LowerIdempotent | Controller/ReservaController.cs:70 | lower-casing twice is lower-casing once |
| Model.RoundHalfEven | Controller/ReservasController.cs:363 | the rounded integer lies within one half of its input, and a tie goes to the even neighbour |
| Model.DiscountAnnotationRange | Models/Reserva.cs:40-41 | the integer range annotation on the discount, which rounds half to even before comparing with 0 and 30, accepts exactly the discounts in [-0.5, 30.5] |
| Model.Valid | Models/Reserva.cs:22-46 | the annotations: a non-blank title of 3 to 150 characters, a non-blank responsible of at most 100, 1 to 100 participants, a rate in [0.01, 9999.99], a discount the integer range annotation accepts, and a payment status of at most 50 characters when present |
| Pricing.Hours | Models/Reserva.cs:53 | the booked hours are the length of the interval in hours |
| Pricing.Gross | Models/Reserva.cs:54 | the gross amount is the booked hours times the hourly rate |
| Pricing.DiscountApplies | Models/Reserva.cs:56 | a discount is honoured only for a booking that starts after `now` with a discount in (0, 30] |
| Pricing.Net | Models/Reserva.cs:58 | the net amount takes the discount, as a percentage, off the gross amount |
| Pricing.Price | Models/Reserva.cs:48-65 | pricing fails with an interval error exactly when the end is not after the start. Otherwise it writes only discount and total, and the result is priced. The discount is kept exactly when the start is in the future and the discount lies in (0, 30], or when it is zero. When it is not kept, the discount is 0 and the total is the gross amount. |
| Pricing.GrossPositive | Models/Reserva.cs:53-54 | a positive rate over a proper interval gives a positive gross amount |
| Pricing.NetBounds | Models/Reserva.cs:58 | taking a 0–30 % discount off a non-negative amount leaves between 70 % and 100 % of it |
| Pricing.PricedBounds | Models/Reserva.cs:53-64 | a priced booking's total lies between 0.7·gross and gross, so a discount never raises the price |
| Pricing.PricedPositive | Models/Reserva.cs:37-38 | with a positive hourly rate a priced booking bills a positive total |
| Pricing.PriceIdempotent | Models/Reserva.cs:48-65 | pricing twice at the same instant gives the same discount and total as pricing once |
| Pricing.PricedOnlyByPricingFields | Models/Reserva.cs:43-65 | whether a booking is priced depends only on its interval, rate, discount and total, so edits to any other field keep it priced |
| Pricing.PriceKeepsFutureDiscount | Models/Reserva.cs:56-64 | for a discount in [0, 30], pricing keeps it for a booking not yet started and zeroes it for a started one |
| Pricing.PriceFixedPoint | Models/Reserva.cs:56-64 | a priced booking whose discount is zero or still honoured is left unchanged by re-pricing |
| Pricing.DiscountedExample | Models/Reserva.cs:56-59 | two future hours at 100 with 10 % off bill 180 and keep the discount |
| Pricing.StartedExample | Models/Reserva.cs:60-64 | the same booking once started loses its discount and bills 200 |
| Status.Label | Controller/ReservasController.cs:420-430 | the four status names, spelled as the main controller answers them |
| Status.Classify | Controller/ReservasController.cs:417-431 | a booking is closed exactly when its end has passed. If ongoing, `now` lies in its closed interval. If imminent, it starts within the next 24 hours. If upcoming, it starts 24 hours or more ahead. |
| Status.InFilter | Controller/ReservasController.cs:58-65 | the four status filters: closed ends before `now`, ongoing holds `now` in its closed interval, imminent starts within the next 24 hours, upcoming starts more than 24 hours ahead |
| Status.StartingNowIsOngoing | Controller/ReservasController.cs:422-423 | a booking starting exactly now is ongoing |
| Status.FiltersPartition | Controller/ReservasController.cs:56-66 | for a booking that does not end before it starts, exactly one of the four status filters selects it |
| Status.FiltersAgreeWithClassify | Controller/ReservasController.cs:58-65 | each filter selects exactly the bookings classified with its label, except a start exactly 24 hours ahead: the imminent filter takes it while the classifier calls it upcoming |
| Status.ParseExact | Controller/ReservasController.cs:56-66 | a status name selects a filter exactly when it equals one of the four labels, case included. A missing, empty or unknown name selects no filter. |
| Status.ParseExactLabel | Controller/ReservasController.cs:58-65 | each label selects its own status |
| Overlap.Conflicts | Controller/ReservasController.cs:163-168 | a stored booking conflicts with a candidate when it is in the same room, does not carry the excluded id, and their intervals strictly intersect |
| Overlap.HasConflict | Controller/ReservasController.cs:243-247 | some stored booking conflicts with the candidate |
| Overlap.IntersectsSymmetric | Controller/ReservasController.cs:167-168 | the intersection test does not depend on which interval is the stored one |
| Overlap.ConflictsSymmetric | Controller/ReservasController.cs:163-168 | two bookings conflict in both directions or in neither |
| Overlap.TouchingNeverIntersects | Controller/ReservasController.cs:167-168 | intervals that only touch at an endpoint never conflict |
| Overlap.IntersectsIffSharedInstant | Controller/ReservasController.cs:167-168 | two proper intervals intersect exactly when some instant lies in both half-open intervals |
| Overlap.MeetingRoomExample | Controller/ReservasController.cs:163-168 | a stored 09:00–10:00 booking blocks 09:30–10:30 in the same room but not 10:00–11:00 |
| Admission.Consistent | Controller/ReservasController.cs:161-195 | the table invariant: every booking sits under its own positive key, carries the total its pricing computed, and intersects no other booking of its room |
| Admission.DefaultStatus | Controller/ReservasController.cs:192 | a missing payment status becomes `Pendente` and a present one is kept |
| Admission.PostReservation | Controller/ReservasController.cs:129-213 | the checks run in order: annotations, then the interval, then overlap. A rejection leaves the store unchanged. A body that passes every check but carries a non-zero id fails at the insert (`StorageError`). The create succeeds exactly when all checks pass and the body carries no id. It then adds exactly one booking under the new key, priced and trimmed, with a missing payment status set to `Pendente` and the body's discount kept only when it applies (a future start and a discount in (0, 30]). |
| Admission.NewBooking | Controller/ReservasController.cs:187-195 | the stored booking carries the new key and is priced. Its texts are trimmed and its payment status defaulted. Its other fields come from the body, with the discount kept only for a future start and a discount in (0, 30], and 0 otherwise. |
| Admission.PostPreservesConsistency | Controller/ReservasController.cs:161-195 | a create keeps the table consistent, so the new booking overlaps nothing in its room |
| Admission.PutRejection | Controller/ReservasController.cs:219-252 | the rejections in the order they are checked: invalid annotations, then an id mismatch, then a missing booking, then an improper interval, then a conflict with another booking of the body's room. No rejection exactly when every check passes. |
| Admission.Edited | Controller/ReservasController.cs:255-261 | the stored booking with trimmed title and responsible, client, interval, participants and rate taken from the body, and the room given |
| Admission.PutReservationAsWritten | Controller/ReservasController.cs:219-264 | a rejected update leaves the store unchanged and answers the first failing check. A successful update copies title and responsible (trimmed), client, interval, participants and rate, and re-prices. The stored discount survives only while it still applies to the new start, and is 0 otherwise. The id, the room and the payment status stay as stored. |
| Admission.PutAsWrittenDoubleBooks | Controller/ReservasController.cs:243-261 | on a consistent two-booking table, moving a booking to an empty room at the other booking's time passes the check, yet leaves two intersecting bookings in the old room |
| Admission.PutReservation | Controller/ReservasController.cs:243-264 | the corrected update stores the room the overlap test checked. Otherwise its contract is that of the as-written update, and the old discount survives only while it still applies. |
| Admission.PutPreservesConsistency | Controller/ReservasController.cs:243-264 | the corrected update keeps the table consistent |
| Admission.PatchDiscount | Controller/ReservasController.cs:283-331 | the checks run in order: range, then lookup, then the closed-or-running refusal. Past those checks the patch succeeds exactly when the stored interval is proper, and otherwise fails in pricing. On success the booking had not started, only discount and total change, and the stored discount is the requested one with the total the net of the gross amount. |
| Admission.PatchPreservesConsistency | Controller/ReservasController.cs:307-309 | on a consistent table the patch never fails in pricing, and it keeps the table consistent |
| Admission.Toggled | Controller/ReservasController.cs:376 | `Pago` becomes `Pendente`, and every other status, a missing one included, becomes `Pago` |
| Admission.TogglePayment | Controller/ReservasController.cs:370-386 | an unknown id is not found. Otherwise only the payment status changes, and the reply carries the unchanged total. |
| Admission.ToggleTwice | Controller/ReservasController.cs:376 | toggling twice restores a `Pago` or `Pendente` status |
| Admission.TogglePreservesConsistency | Controller/ReservasController.cs:370-386 | the toggle keeps the table consistent |
| Admission.DeleteReservation | Controller/ReservasController.cs:397-407 | an unknown id is not found. Otherwise exactly that booking is removed and every other one is kept as it was. |
| Admission.DeletePreservesConsistency | Controller/ReservasController.cs:397-407 | a delete keeps the table consistent |
| Listing.InDateWindow | Controller/ReservasController.cs:47-55 | a booking passes the date window when it starts no earlier than the given start and ends no later than the given end, each bound only when given |
| Listing.Where | Controller/ReservasController.cs:47-66 | each row that passes the date window and the status filter keeps all its copies, and every other row is dropped |
| Listing.InsertBy | Controller/ReservasController.cs:69 | inserting into an ordered sequence keeps it ordered, one longer, headed by the new element or the old head |
| Listing.InsertByAdds | Controller/ReservasController.cs:69 | insertion adds exactly the inserted element to the multiset of elements |
| Listing.SortBy | Controller/ReservasController.cs:69 | the ordering is a permutation of its input, ordered by the key (the start instant in the listing) |
| Listing.Query | Controller/ReservasController.cs:47-69 | the ordered query is ordered by start, and holds every copy of each selected row and nothing else |
| Listing.Offset | Controller/ReservasController.cs:74 | the number of rows the page query skips: the page number less one, times the page size |
| Listing.Page | Controller/ReservasController.cs:73-76 | the page query fails exactly when the page size is negative, or positive with a page number below one. A page size of zero gives an empty page. Otherwise the page holds at most the page size, its items are the consecutive rows from the offset on, and it is full when enough rows follow the offset. |
| Listing.TotalPages | Controller/ReservasController.cs:102 | for a positive page size, the page count is the least number of pages that holds every row. For page size zero it is left unspecified. |
| Listing.PageHolds | Controller/ReservasController.cs:72-76 | row `q * size + r` (with `r < size`) is item `r` of page `q + 1`, a page the query accepts and within the page count |
| Listing.PageLocates | Controller/ReservasController.cs:72-76 | every row of the ordered query appears on exactly the page and position its index gives, and that page is within the page count |
| Listing.GetReservations | Controller/ReservasController.cs:33-106 | the listing fails exactly when the page size is negative, or positive with a page number below one. A page size of zero answers no items and an unspecified page count. Otherwise the envelope's count and page count describe the whole filtered query. The items are the requested page of it, each a selected stored row labelled with its `CalcularStatus` status. |
| Reporting.CountActive | Controller/ReservasController.cs:344 | the count is the number of positions whose booking ends after `now` |
| Reporting.IsPaid | Controller/ReservasController.cs:348-353 | a payment status is paid when present and equal to `pago` once lower-cased |
| Reporting.SumWhere | Controller/ReservasController.cs:347-354 | the summed totals of the bookings on the paid side, or of those on the unpaid side |
| Reporting.SumHours | Controller/ReservasController.cs:356 | the summed booked hours of all bookings |
| Reporting.RevenuePartition | Controller/ReservasController.cs:347-354 | realized plus projected revenue is the sum of all totals, because the case-insensitive `pago` test sends each booking to exactly one side |
| Reporting.RevenueNonNegative | Controller/ReservasController.cs:347-354 | with non-negative totals both revenues are non-negative |
| Reporting.Round1 | Controller/ReservasController.cs:363 | rounding to one decimal moves the value by at most 0.05 |
| Reporting.Summarize | Controller/ReservasController.cs:336-365 | one pass yields four figures: the bookings ending after `now`, the paid and unpaid revenue, and the summed hours rounded to one decimal |
| Reporting.SummaryExample | Controller/ReservasController.cs:346-354 | a `Pago` booking of 100 and a `Pendente` booking of 50 give realized 100 and projected 50 |
| Reporting.InChartWindow | Controller/ReservasController.cs:443 | a booking enters the chart when it starts within 15 days either side of `now`, both ends included |
| Reporting.DayOf | Controller/ReservasController.cs:448 | the calendar day an instant falls on |
| Reporting.NothingBeforeFirst | Controller/ReservasController.cs:447-456 | a chronological series shows no count and no revenue before its first day |
| Reporting.AddToSeries | Controller/ReservasController.cs:447-456 | adding a booking keeps the series chronological with no empty point. It raises that day's count by one and its revenue by the booking's total, and leaves every other day alone. |
| Reporting.Series | Controller/ReservasController.cs:438-456 | the series is chronological with no empty point. For every day it shows the number and summed totals of the bookings that start that day within 15 days either side of `now`. |
| Reporting.SeriesDaysAreBookedDays | Controller/ReservasController.cs:447-453 | every point of the series is a day on which some windowed booking starts |
| Reporting.PointShows | Controller/ReservasController.cs:447-453 | each point's count and revenue are what the series shows for its day |
| Legacy.LegacyConflict | Controller/ReservaController.cs:29-32 | some stored booking of the candidate's room intersects the candidate, with no booking left out |
| Legacy.LegacyConflictIsWider | Controller/ReservaController.cs:29-32 | the legacy overlap test finds exactly the main controller's conflicts, plus the stored booking that carries the candidate's own id |
| Legacy.CreateReservation | Controller/ReservaController.cs:24-48 | the checks run in order: annotations, then the interval, then overlap with no exclusion. A rejection leaves the store unchanged, and a body with a non-zero id fails at the insert. On success exactly one booking is added, priced but not trimmed and not defaulted. |
| Legacy.CreateAgreesWithPost | Controller/ReservaController.cs:26-42 | for a new booking both creates accept the same requests with the same errors. They store the same booking up to the trimming and status default of the main controller. |
| Legacy.CreatePreservesConsistency | Controller/ReservaController.cs:26-42 | the legacy create keeps the table consistent |
| Legacy.LegacyStatus | Controller/ReservaController.cs:97-99 | a booking is ongoing exactly when `now` lies in its closed interval. It is closed exactly when it ended before `now`. It is imminent exactly when it starts after `now` and at most 24 hours ahead and has not ended. Otherwise it is upcoming. |
| Legacy.LegacyStatusDiffers | Controller/ReservaController.cs:97-99 | the ternary differs from `CalcularStatus` exactly for a booking not yet ended that starts exactly 24 hours ahead: the ternary says imminent and `CalcularStatus` says upcoming |
| Legacy.LegacyStatusIsFilter | Controller/ReservaController.cs:71-78 | for a booking that does not end before it starts, the ternary names exactly the filter that selects it |
| Legacy.LowerLabel | Controller/ReservaController.cs:71-77 | the four lower-case status names the legacy listing compares against |
| Legacy.ParseIgnoreCase | Controller/ReservaController.cs:68-79 | a status name selects a filter exactly when its lower-cased form equals a lower-case label. A missing, empty or unrecognised name selects no filter. |
| Legacy.LowerLabelIsFolded | Controller/ReservaController.cs:70-78 | each lower-case label the legacy code compares against is the corresponding label lower-cased |
| Legacy.ParseIgnoreCaseWidens | Controller/ReservaController.cs:68-79 | every name the main listing recognises is recognised as the same status by the legacy listing, and so is its lower-case form |
| Legacy.ListAgreesWithGet | Controller/ReservaController.cs:52-109 | with no status, or a status spelled exactly as a label, the legacy listing and the main listing fail together. When they succeed, they agree on the count, the page count and each item's booking. An item's label differs exactly for a booking not yet ended that starts exactly 24 hours ahead. |
| Legacy.ListReservations | Controller/ReservaController.cs:52-109 | the legacy listing fails exactly when the page size is negative, or positive with a page number below one. A page size of zero answers no items and an unspecified page count. Otherwise it counts and pages the filtered query ordered by start, and each item is a selected stored row labelled by the ternary. |
| Legacy.UpdateDiscountInline | Controller/ReservaController.cs:113-140 | the checks run in order: lookup, then range. A pricing error saves nothing. On success only discount and total change, with the discount kept only for a booking not yet started. |
| Legacy.InlineAgreesOnFutureBookings | Controller/ReservaController.cs:115-134 | on a priced booking not yet started, the inline patch behaves exactly as the main discount patch |
| Legacy.InlineOnStartedBooking | Controller/ReservaController.cs:123-127 | on a started booking the main patch refuses, while the inline patch succeeds with discount 0 and the gross total |
| Legacy.CheckOrderDiffers | Controller/ReservaController.cs:115-121 | an unknown id with an out-of-range discount is not found here and out of range in the main patch |
| Legacy.InlinePreservesConsistency | Controller/ReservaController.cs:123-128 | the inline patch keeps the table consistent |
| Clients.TrimOption | Controller/ClientesController.cs:59-60 | a null text stays null and a present one is trimmed |
| Clients.GetClient | Controller/ClientesController.cs:40-45 | the lookup answers with the stored client exactly when the id is present, and is not found otherwise |
| Clients.PutClient | Controller/ClientesController.cs:49-71 | an id mismatch, then a missing client, are rejected with the store unchanged. On success three fields are replaced: the name (trimmed, or empty for null), the tax id and the phone (both trimmed). The id, the e-mail and the set of clients are kept. |
| Clients.GetAfterPut | Controller/ClientesController.cs:54-65 | after an update the lookup answers with the updated client |
| Clients.PutClientIdempotent | Controller/ClientesController.cs:58-60 | repeating an update leaves the store as the first one did |
| Clients.DeleteClient | Controller/ClientesController.cs:75-92 | the delete answers not found for a missing client. It is refused with the store unchanged while any booking refers to the client. Otherwise it removes exactly that client and keeps every other one. |
| Clients.HasBookings | Controller/ClientesController.cs:82 | some booking refers to the client |
| Clients.DeleteKeepsReferences | Controller/ClientesController.cs:82-86 | the guard keeps every booking's client reference resolvable |
| Clients.PutKeepsReferences | Controller/ClientesController.cs:58-60 | an update keeps every booking's client reference resolvable |
| Clients.GetAfterDelete | Controller/ClientesController.cs:88-91 | a deleted client is not found |

## Left out

- **Clocks.** `DateTime.UtcNow` and `DateTime.Now` are replaced by the `now` parameter. The
  update and the legacy listing read local time where the rest reads UTC. The model puts every
  instant on one time line.
- **Decimal and double arithmetic.** Money is exact `real`. The `double` value of
  `TimeSpan.TotalHours` and the 28-digit precision of `decimal` are not modelled.
- **32-bit page arithmetic.** The `int` product `(pagina - 1) * tamanhoPagina` can overflow in
  the source. The model computes it exactly.
- Listing.TotalPages: for page size zero the source casts `Math.Ceiling` of a division by
  zero (NaN or infinity) to `int`, a value C# leaves unspecified. The model answers `None`
  there, and `Listing.GetReservations` and `Legacy.ListReservations` promise nothing about
  that page count.
- Listing.Page: the empty page at page size zero assumes that EF Core drops the `Take(0)`
  query without sending it to SQL Server.
- Model.Valid: a discount too large for a 32-bit integer makes `Convert.ToInt32` throw inside
  validation, an unhandled 500. The model answers it with `InvalidFields`, like any other
  discount outside [-0.5, 30.5].
- Text.Lower: folds only ASCII capitals. The culture-sensitive `ToLower()` of .NET also folds
  other letters.
- Model.Valid: counts string lengths in characters. `StringLength` counts UTF-16 code units.
- **Implicit `[Required]` on `Cliente.Nome`.** This nullable-context rule is not modelled.
  `PutClient` follows the code's own handling of a null name.
- **Persistence.** Apart from the insert of an explicit identity value (`StorageError`), the
  failures of `SaveChangesAsync` are not modelled. In particular, a `ClienteId` or `SalaId`
  with no row breaks a foreign key and fails at `SaveChangesAsync` in the create and the
  update (`Controller/ReservasController.cs` lines 195 and 268); the model has no room table
  and stores such a booking. `DbUpdateConcurrencyException` and the race between the overlap
  query and the insert are not modelled either. Each request is one atomic step over a store
  value.
- **Reply shapes.** `Rejection` kinds stand for the answers without their status codes: a
  `StorageError` is a 500 in the main create but a `BadRequest` in the legacy create.
- Legacy.ListReservations: returns the same `Envelope` of whole bookings as the main listing.
  The legacy reply has no page-size field (`Total`, `PaginaAtual`, `TotalPaginas`, `Dados`),
  and each item is a nine-field projection without `ClienteId`, `SalaId` or `Responsavel`.
- **HTTP.** Status codes and message texts are reduced to the `Rejection` kinds.
- **Navigation properties.** The `Include`s of `Cliente`/`Sala` and the `ClienteNome`
  projection are not modelled, and neither is the `Sala` entity. `Sala` is not part of this
  model.
- **Other endpoints.** `GetReserva`, `GetClientes` and `PostCliente` are plain reads or a
  pass-through insert with no rule of their own.
- **Chart labels.** The chart's `dd/MM` labels are not modelled, and neither is its
  `ParseExact` ordering, which sorts by day-of-year and can reorder a window spanning New Year.
  The series is keyed and ordered by day number.
- Reporting.DayOf: uses the UTC day of an instant. It does not use the `DateTime.Kind`-dependent
  `.Date`.
- Listing.SortBy: states only ordering and permutation. SQL `ORDER BY` leaves the order among
  equal starts unspecified, and so does the model.
- Reporting.Summarize: takes the rows as given and states the rounded hours through `Round1`.
  It does not model the `double` to `decimal` conversion of each duration.

## Findings

| source | as written | input that shows it | evidently intended | confidence | as-written member | corrected member |
|---|---|---|---|---|---|---|
| Controller/ReservasController.cs:243-261 | the update checks overlap against the body's `SalaId` but never copies `SalaId` into the stored booking | bookings 1 (room 1, 0h–10h) and 2 (room 1, 20h–30h); a PUT of booking 1 to room 2 at 20h–30h passes the check and leaves booking 1 in room 1 overlapping booking 2 | the room is replaced along with the interval, so the checked room is the stored room | high (not executed) | Admission.PutAsWrittenDoubleBooks | Admission.PutPreservesConsistency |

=== FILE: admission.dfy ===
/** The write endpoints of the reservation controller as transitions of the
    reservation store: create, update, discount patch, payment toggle and
    delete.  Each checks its rejections in a fixed order and touches the
    store only once every check has passed. */
module Admission {
  import opened Text
  import opened Model
  import opened Pricing
  import opened Status
  import opened Overlap

  /** Every stored booking sits under its own positive identity key. */
  predicate WellKeyed(store: ReservationStore) {
    forall k :: k in store ==> k > 0 && store[k].id == k
  }

  /** Every stored booking carries the total its pricing computed. */
  predicate AllPriced(store: ReservationStore) {
    forall k :: k in store ==> Priced(store[k])
  }

  /** What the reservation table keeps true between requests. */
  predicate Consistent(store: ReservationStore) {
    WellKeyed(store) && AllPriced(store) && NoOverlaps(store)
  }

  /** The fields the discount endpoint answers with. */
  datatype DiscountReply = DiscountReply(id: int, discount: real, total: real)

  /** The fields the payment endpoint answers with. */
  datatype PaymentReply = PaymentReply(id: int, paymentStatus: Option<string>, total: real)

  /** `StatusPagamento ??= "Pendente"`. */
  function DefaultStatus(s: Option<string>): (t: Option<string>)
    ensures s.None? ==> t == Some(PENDING)
    ensures s.Some? ==> t == s
  {
    if s.None? then Some(PENDING) else s
  }

  /** `PostReserva`: annotations, then the interval, then the overlap test
      (which leaves out stored bookings with the body's own id); then the
      booking is priced at `now`, its texts trimmed and a missing payment
      status defaulted.  SQL Server refuses an explicit identity value, so a
      body with a non-zero id fails at the insert; otherwise the database
      hands out the fresh key `newId`. */
  function PostReservation(store: ReservationStore, body: Reservation, now: int, newId: int)
    : (step: Step<ReservationStore, Reservation>)
    requires newId > 0 && newId !in store
    ensures step.reply.Failure? ==> step.store == store
    ensures !Valid(body) ==> step.reply == Failure(InvalidFields)
    ensures Valid(body) && body.end <= body.start ==> step.reply == Failure(InvalidInterval)
    ensures Valid(body) && body.end > body.start && HasConflict(store, body, body.id)
            ==> step.reply == Failure(Overlap)
    ensures Valid(body) && body.end > body.start && !HasConflict(store, body, body.id) && body.id != 0
            ==> step.reply == Failure(StorageError)
    ensures step.reply.Success? <==>
            Valid(body) && body.end > body.start && !HasConflict(store, body, body.id) && body.id == 0
    ensures step.reply.Success? ==>
      var saved := step.reply.value;
      && step.store == store[newId := saved]
      && |step.store| == |store| + 1
      && saved.id == newId
      && Priced(saved)
      && saved.title == Trim(body.title)
      && saved.responsible == Trim(body.responsible)
      && saved.paymentStatus == DefaultStatus(body.paymentStatus)
      && saved.clientId == body.clientId && saved.roomId == body.roomId
      && saved.start == body.start && saved.end == body.end
      && saved.participants == body.participants && saved.hourlyRate == body.hourlyRate
      && saved.discount == (if DiscountApplies(body, now) then body.discount else 0.0)
  {
    if !Valid(body) then Step(store, Failure(InvalidFields))
    else if body.end <= body.start then Step(store, Failure(InvalidInterval))
    else if HasConflict(store, body, body.id) then Step(store, Failure(Overlap))
    else if body.id != 0 then Step(store, Failure(StorageError))
    else
      var saved := NewBooking(body, now, newId);
      Step(store[newId := saved], Success(saved))
  }

  /** The booking a successful create stores: priced at `now`, texts
      trimmed, payment status defaulted, under the key `newId`. */
  function NewBooking(body: Reservation, now: int, newId: int): (saved: Reservation)
    requires body.end > body.start
    ensures saved.id == newId
    ensures Priced(saved)
    ensures saved.title == Trim(body.title) && saved.responsible == Trim(body.responsible)
    ensures saved.paymentStatus == DefaultStatus(body.paymentStatus)
    ensures saved.clientId == body.clientId && saved.roomId == body.roomId
    ensures saved.start == body.start && saved.end == body.end
    ensures saved.participants == body.participants && saved.hourlyRate == body.hourlyRate
    ensures saved.discount == (if DiscountApplies(body, now) then body.discount else 0.0)
  {
    var priced := Price(body, now).value;
    var saved := priced.(id := newId,
                         title := Trim(body.title),
                         responsible := Trim(body.responsible),
                         paymentStatus := DefaultStatus(body.paymentStatus));
    PricedOnlyByPricingFields(priced, saved);
    saved
  }

  /** A successful create keeps the table consistent: in particular the new
      booking overlaps nothing in its room. */
  lemma PostPreservesConsistency(store: ReservationStore, body: Reservation, now: int, newId: int)
    requires Consistent(store) && newId > 0 && newId !in store
    ensures Consistent(PostReservation(store, body, now, newId).store)
  {
    var step := PostReservation(store, body, now, newId);
    if step.reply.Success? {
      var saved := step.reply.value;
      var s' := step.store;
      forall k | k in store && store[k].roomId == saved.roomId
        ensures !Intersects(store[k].start, store[k].end, saved.start, saved.end)
      {
        assert !Conflicts(store[k], body, body.id);
      }
      forall j, k | j in s' && k in s' && j != k && s'[j].roomId == s'[k].roomId
        ensures !Intersects(s'[j].start, s'[j].end, s'[k].start, s'[k].end)
      {
        if j == newId {
          IntersectsSymmetric(s'[j].start, s'[j].end, s'[k].start, s'[k].end);
        }
      }
    }
  }

  /** The rejections of `PutReserva`, in the order it checks them: the
      annotations, the route id against the body id, the lookup, the
      interval, and the overlap test leaving out the booking being edited. */
  function PutRejection(store: ReservationStore, id: int, body: Reservation): (e: Option<Rejection>)
    ensures !Valid(body) ==> e == Some(InvalidFields)
    ensures Valid(body) && id != body.id ==> e == Some(IdMismatch)
    ensures Valid(body) && id == body.id && id !in store ==> e == Some(NotFound)
    ensures Valid(body) && id == body.id && id in store && body.end <= body.start ==> e == Some(InvalidInterval)
    ensures Valid(body) && id == body.id && id in store && body.end > body.start && HasConflict(store, body, id)
            ==> e == Some(Overlap)
    ensures e.None? <==> Valid(body) && id == body.id && id in store && body.end > body.start
                         && !HasConflict(store, body, id)
  {
    if !Valid(body) then Some(InvalidFields)
    else if id != body.id then Some(IdMismatch)
    else if id !in store then Some(NotFound)
    else if body.end <= body.start then Some(InvalidInterval)
    else if HasConflict(store, body, id) then Some(Overlap)
    else None
  }

  /** The stored booking with the fields a PUT copies from the body, the
      room taken from `room`. */
  function Edited(existing: Reservation, body: Reservation, room: int): Reservation {
    existing.(title := Trim(body.title),
              responsible := Trim(body.responsible),
              clientId := body.clientId,
              roomId := room,
              start := body.start,
              end := body.end,
              participants := body.participants,
              hourlyRate := body.hourlyRate)
  }

  /** `PutReserva` as written: the overlap test uses the body's room, but
      the room is not among the copied fields, so the stored booking keeps
      its old room. */
  function PutReservationAsWritten(store: ReservationStore, id: int, body: Reservation, now: int)
    : (step: Step<ReservationStore, Reservation>)
    ensures step.reply.Failure? <==> PutRejection(store, id, body).Some?
    ensures step.reply.Failure? ==> step.store == store && step.reply.error == PutRejection(store, id, body).value
    ensures step.reply.Success? ==>
      var saved := step.reply.value;
      && step.store == store[id := saved]
      && saved.id == store[id].id
      && saved.roomId == store[id].roomId
      && saved.paymentStatus == store[id].paymentStatus
      && saved.title == Trim(body.title) && saved.responsible == Trim(body.responsible)
      && saved.clientId == body.clientId && saved.start == body.start && saved.end == body.end
      && saved.participants == body.participants && saved.hourlyRate == body.hourlyRate
      && Priced(saved)
      && (DiscountApplies(saved.(discount := store[id].discount), now) ==> saved.discount == store[id].discount)
      && (!DiscountApplies(saved.(discount := store[id].discount), now) ==> saved.discount == 0.0)
  {
    match PutRejection(store, id, body)
    case Some(e) => Step(store, Failure(e))
    case None =>
      var saved := Price(Edited(store[id], body, store[id].roomId), now).value;
      Step(store[id := saved], Success(saved))
  }

  /** `PutReserva` with the room copied along with the other edited fields,
      so that the room the overlap test checked is the room stored. */
  function PutReservation(store: ReservationStore, id: int, body: Reservation, now: int)
    : (step: Step<ReservationStore, Reservation>)
    ensures step.reply.Failure? <==> PutRejection(store, id, body).Some?
    ensures step.reply.Failure? ==> step.store == store && step.reply.error == PutRejection(store, id, body).value
    ensures step.reply.Success? ==>
      var saved := step.reply.value;
      && step.store == store[id := saved]
      && saved.id == store[id].id
      && saved.roomId == body.roomId
      && saved.paymentStatus == store[id].paymentStatus
      && saved.title == Trim(body.title) && saved.responsible == Trim(body.responsible)
      && saved.clientId == body.clientId && saved.start == body.start && saved.end == body.end
      && saved.participants == body.participants && saved.hourlyRate == body.hourlyRate
      && Priced(saved)
      && (DiscountApplies(saved.(discount := store[id].discount), now) ==> saved.discount == store[id].discount)
      && (!DiscountApplies(saved.(discount := store[id].discount), now) ==> saved.discount == 0.0)
  {
    match PutRejection(store, id, body)
    case Some(e) => Step(store, Failure(e))
    case None =>
      var saved := Price(Edited(store[id], body, body.roomId), now).value;
      Step(store[id := saved], Success(saved))
  }

  /** Two bookings of room 1: booking 1 from 0h to 10h and booking 2 from
      20h to 30h. */
  function DoubleBookingStore(): ReservationStore {
    map[1 := Reservation(1, 7, 1, "Daily", "Ana", 0, 10 * HOUR, 4, 100.0, 0.0, 1000.0, Some(PENDING)),
        2 := Reservation(2, 7, 1, "Review", "Rui", 20 * HOUR, 30 * HOUR, 4, 100.0, 0.0, 1000.0, Some(PENDING))]
  }

  /** Moving booking 1 to room 2 at 20h-30h passes the overlap test of the
      as-written update (room 2 is empty), yet booking 1 stays in room 1 and
      now intersects booking 2 there. */
  lemma PutAsWrittenDoubleBooks()
    ensures Consistent(DoubleBookingStore())
    ensures var body := DoubleBookingStore()[1].(roomId := 2, start := 20 * HOUR, end := 30 * HOUR);
            var step := PutReservationAsWritten(DoubleBookingStore(), 1, body, 0);
            step.reply.Success? && !NoOverlaps(step.store)
  {
    DoubleBookingStoreConsistent();
    var store := DoubleBookingStore();
    var body := store[1].(roomId := 2, start := 20 * HOUR, end := 30 * HOUR);
    MovedBookingValid(body);
    assert !HasConflict(store, body, 1) by {
      forall k | k in store
        ensures !Conflicts(store[k], body, 1)
      {
        assert store[k].roomId == 1;
      }
    }
    var step := PutReservationAsWritten(store, 1, body, 0);
    assert step.store[1].roomId == 1 && step.store[2] == store[2];
    assert Intersects(step.store[1].start, step.store[1].end, step.store[2].start, step.store[2].end);
  }

  /** That table is consistent. */
  lemma DoubleBookingStoreConsistent()
    ensures Consistent(DoubleBookingStore())
  {
    var store := DoubleBookingStore();
    assert Gross(store[1]) == 1000.0 && Gross(store[2]) == 1000.0;
  }

  /** Booking 1 moved to room 2 at 20h-30h passes the annotations. */
  lemma MovedBookingValid(body: Reservation)
    requires body == DoubleBookingStore()[1].(roomId := 2, start := 20 * HOUR, end := 30 * HOUR)
    ensures Valid(body)
  {
    assert body.title == "Daily" && body.responsible == "Ana";
    assert !IsWhiteSpace(body.title[0]) && !IsWhiteSpace(body.responsible[0]);
  }

  /** The corrected update keeps the table consistent. */
  lemma PutPreservesConsistency(store: ReservationStore, id: int, body: Reservation, now: int)
    requires Consistent(store)
    ensures Consistent(PutReservation(store, id, body, now).store)
  {
    var step := PutReservation(store, id, body, now);
    if step.reply.Success? {
      var saved := step.reply.value;
      var s' := step.store;
      forall k | k in store && k != id && store[k].roomId == saved.roomId
        ensures !Intersects(store[k].start, store[k].end, saved.start, saved.end)
      {
        assert !Conflicts(store[k], body, id);
      }
      forall j, k | j in s' && k in s' && j != k && s'[j].roomId == s'[k].roomId
        ensures !Intersects(s'[j].start, s'[j].end, s'[k].start, s'[k].end)
      {
        if j == id {
          IntersectsSymmetric(s'[j].start, s'[j].end, s'[k].start, s'[k].end);
        }
      }
    }
  }

  /** `PatchDesconto`: the range check comes before the lookup; closed and
      running bookings are refused; the discount is then set and the booking
      re-priced.  The re-pricing sits outside the error handler, so a stored
      booking with a bad interval makes the request fail. */
  function PatchDiscount(store: ReservationStore, id: int, discount: real, now: int)
    : (step: Step<ReservationStore, DiscountReply>)
    ensures step.reply.Failure? ==> step.store == store
    ensures discount < 0.0 || discount > 30.0 ==> step.reply == Failure(DiscountOutOfRange)
    ensures 0.0 <= discount <= 30.0 && id !in store ==> step.reply == Failure(NotFound)
    ensures 0.0 <= discount <= 30.0 && id in store
            && Classify(store[id].start, store[id].end, now) in {Closed, Ongoing}
            ==> step.reply == Failure(NotFuture)
    ensures 0.0 <= discount <= 30.0 && id in store
            && Classify(store[id].start, store[id].end, now) !in {Closed, Ongoing}
            ==> (step.reply.Success? <==> store[id].end > store[id].start)
    ensures step.reply.Failure? && 0.0 <= discount <= 30.0 && id in store
            && Classify(store[id].start, store[id].end, now) !in {Closed, Ongoing}
            ==> step.reply.error == PricingFailed
    ensures step.reply.Success? ==> id in store && id in step.store
    ensures step.reply.Success? && id in step.store ==>
      var saved := step.store[id];
      && id in store
      && store[id].start > now
      && step.store == store[id := saved]
      && SameExceptPricing(store[id], saved)
      && saved.discount == discount
      && saved.total == Net(Gross(saved), discount)
      && step.reply.value == DiscountReply(store[id].id, discount, saved.total)
  {
    if discount < 0.0 || discount > 30.0 then Step(store, Failure(DiscountOutOfRange))
    else if id !in store then Step(store, Failure(NotFound))
    else
      var r := store[id];
      var status := Classify(r.start, r.end, now);
      if status == Closed || status == Ongoing then Step(store, Failure(NotFuture))
      else
        match Price(r.(discount := discount), now)
        case Failure(_) => Step(store, Failure(PricingFailed))
        case Success(saved) =>
          Step(store[id := saved], Success(DiscountReply(saved.id, saved.discount, saved.total)))
  }

  /** On a consistent table the discount patch fails only for the reasons
      it checks, and keeps the table consistent. */
  lemma PatchPreservesConsistency(store: ReservationStore, id: int, discount: real, now: int)
    requires Consistent(store)
    ensures PatchDiscount(store, id, discount, now).reply != Failure(PricingFailed)
    ensures Consistent(PatchDiscount(store, id, discount, now).store)
  {
    var step := PatchDiscount(store, id, discount, now);
    if step.reply.Success? {
      var s' := step.store;
      forall j, k | j in s' && k in s' && j != k && s'[j].roomId == s'[k].roomId
        ensures !Intersects(s'[j].start, s'[j].end, s'[k].start, s'[k].end)
      {
        assert s'[j].start == store[j].start && s'[j].end == store[j].end && s'[j].roomId == store[j].roomId;
        assert s'[k].start == store[k].start && s'[k].end == store[k].end && s'[k].roomId == store[k].roomId;
      }
    }
  }

  /** `Pago` becomes `Pendente`; anything else, a missing status included,
      becomes `Pago`. */
  function Toggled(s: Option<string>): (t: Option<string>)
    ensures t == Some(PENDING) <==> s == Some(PAID)
    ensures t == Some(PAID) <==> s != Some(PAID)
  {
    if s == Some(PAID) then Some(PENDING) else Some(PAID)
  }

  /** `TogglePagamento`: flips the payment status of the booking and leaves
      everything else, the total included, as it was. */
  function TogglePayment(store: ReservationStore, id: int): (step: Step<ReservationStore, PaymentReply>)
    ensures id !in store ==> step == Step(store, Failure(NotFound))
    ensures id in store ==> id in step.store
    ensures id in store && id in step.store ==>
      var saved := step.store[id];
      && step.reply.Success?
      && step.store == store[id := saved]
      && saved == store[id].(paymentStatus := Toggled(store[id].paymentStatus))
      && step.reply.value == PaymentReply(store[id].id, saved.paymentStatus, store[id].total)
  {
    if id !in store then Step(store, Failure(NotFound))
    else
      var saved := store[id].(paymentStatus := Toggled(store[id].paymentStatus));
      Step(store[id := saved], Success(PaymentReply(saved.id, saved.paymentStatus, saved.total)))
  }

  /** Toggling twice restores a status that was `Pago` or `Pendente`. */
  lemma ToggleTwice(store: ReservationStore, id: int)
    requires id in store && store[id].paymentStatus in {Some(PAID), Some(PENDING)}
    ensures TogglePayment(TogglePayment(store, id).store, id).store == store
  {
    var once := TogglePayment(store, id).store;
    var twice := TogglePayment(once, id).store;
    assert twice[id] == store[id];
  }

  /** The payment toggle touches nothing the table invariant depends on. */
  lemma TogglePreservesConsistency(store: ReservationStore, id: int)
    requires Consistent(store)
    ensures Consistent(TogglePayment(store, id).store)
  {
    var s' := TogglePayment(store, id).store;
    if id in store {
      PricedOnlyByPricingFields(store[id], s'[id]);
    }
    forall j, k | j in s' && k in s' && j != k && s'[j].roomId == s'[k].roomId
      ensures !Intersects(s'[j].start, s'[j].end, s'[k].start, s'[k].end)
    {
      assert s'[j].start == store[j].start && s'[j].end == store[j].end && s'[j].roomId == store[j].roomId;
      assert s'[k].start == store[k].start && s'[k].end == store[k].end && s'[k].roomId == store[k].roomId;
    }
  }

  /** `DeleteReserva`: removes the booking under `id`, unconditionally. */
  function DeleteReservation(store: ReservationStore, id: int): (step: Step<ReservationStore, int>)
    ensures id !in store ==> step == Step(store, Failure(NotFound))
    ensures id in store ==> step.reply == Success(id)
    ensures id in store ==> step.store.Keys == store.Keys - {id}
    ensures forall k :: k in step.store ==> k in store && step.store[k] == store[k]
  {
    if id !in store then Step(store, Failure(NotFound))
    else Step(store - {id}, Success(id))
  }

  /** Removing a booking keeps the table consistent. */
  lemma DeletePreservesConsistency(store: ReservationStore, id: int)
    requires Consistent(store)
    ensures Consistent(DeleteReservation(store, id).store)
  {
  }
}

=== FILE: clients.dfy ===
/** The clients controller over the client store: lookup, the update that
    rewrites only some fields, and the delete that refuses while bookings
    still refer to the client. */
module Clients {
  import opened Text
  import opened Model

  /** A client as it arrives in a request body; the name may be null. */
  datatype ClientBody = ClientBody(id: int, name: Option<string>, taxId: Option<string>,
                                   phone: Option<string>, email: Option<string>)

  /** `s?.Trim()`: trims a present text and keeps a null one. */
  function TrimOption(s: Option<string>): (t: Option<string>)
    ensures t.None? <==> s.None?
    ensures t.Some? ==> t.value == Trim(s.value)
  {
    if s.None? then None else Some(Trim(s.value))
  }

  /** Every booking refers to a stored client. */
  predicate ReferencesResolve(clients: ClientStore, reservations: ReservationStore) {
    forall k :: k in reservations ==> reservations[k].clientId in clients
  }

  /** Some booking refers to client `id`. */
  predicate HasBookings(reservations: ReservationStore, id: int) {
    exists k :: k in reservations && reservations[k].clientId == id
  }

  /** `GetCliente`: the stored client, or not found. */
  function GetClient(clients: ClientStore, id: int): (res: Result<Client, Rejection>)
    ensures res.Success? <==> id in clients
    ensures res.Success? ==> res.value == clients[id]
    ensures res.Failure? ==> res.error == NotFound
  {
    if id in clients then Success(clients[id]) else Failure(NotFound)
  }

  /** `PutCliente`: the route id must match the body id and name a stored
      client; then the name is replaced by its trimmed form (an empty name
      for a null one) and the tax id and phone by theirs.  The e-mail and
      the id are kept. */
  function PutClient(clients: ClientStore, id: int, body: ClientBody): (step: Step<ClientStore, Client>)
    ensures id != body.id ==> step == Step(clients, Failure(IdMismatch))
    ensures id == body.id && id !in clients ==> step == Step(clients, Failure(NotFound))
    ensures step.reply.Success? <==> id == body.id && id in clients
    ensures step.reply.Success? ==>
      var c := step.reply.value;
      && id in clients
      && step.store == clients[id := c]
      && step.store.Keys == clients.Keys
      && c.id == clients[id].id
      && c.email == clients[id].email
      && c.name == (if body.name.None? then "" else Trim(body.name.value))
      && c.taxId == TrimOption(body.taxId)
      && c.phone == TrimOption(body.phone)
  {
    if id != body.id then Step(clients, Failure(IdMismatch))
    else if id !in clients then Step(clients, Failure(NotFound))
    else
      var c := clients[id].(name := if body.name.None? then "" else Trim(body.name.value),
                            taxId := TrimOption(body.taxId),
                            phone := TrimOption(body.phone));
      Step(clients[id := c], Success(c))
  }

  /** After an update the lookup answers with the updated client. */
  lemma GetAfterPut(clients: ClientStore, id: int, body: ClientBody)
    requires id == body.id && id in clients
    ensures GetClient(PutClient(clients, id, body).store, id) == PutClient(clients, id, body).reply
  {
  }

  /** Sending the same update twice leaves the store as the first one did:
      trimming what is already trimmed changes nothing. */
  lemma PutClientIdempotent(clients: ClientStore, id: int, body: ClientBody)
    requires id == body.id && id in clients
    ensures var once := PutClient(clients, id, body).store;
            PutClient(once, id, body).store == once
  {
    if body.name.Some? {
      TrimIdempotent(body.name.value);
    }
    if body.taxId.Some? {
      TrimIdempotent(body.taxId.value);
    }
    if body.phone.Some? {
      TrimIdempotent(body.phone.value);
    }
  }

  /** `DeleteCliente`: not found, then refused while any booking refers to
      the client; otherwise exactly that client is removed and the bookings
      are left alone. */
  function DeleteClient(clients: ClientStore, reservations: ReservationStore, id: int)
    : (step: Step<ClientStore, int>)
    ensures id !in clients ==> step == Step(clients, Failure(NotFound))
    ensures id in clients && HasBookings(reservations, id) ==> step == Step(clients, Failure(HasReservations))
    ensures step.reply.Success? <==> id in clients && !HasBookings(reservations, id)
    ensures step.reply.Success? ==>
            && step.reply.value == id
            && step.store.Keys == clients.Keys - {id}
            && forall k :: k in step.store ==> step.store[k] == clients[k]
  {
    if id !in clients then Step(clients, Failure(NotFound))
    else if HasBookings(reservations, id) then Step(clients, Failure(HasReservations))
    else Step(clients - {id}, Success(id))
  }

  /** The guard on delete keeps every booking's client reference valid. */
  lemma DeleteKeepsReferences(clients: ClientStore, reservations: ReservationStore, id: int)
    requires ReferencesResolve(clients, reservations)
    ensures ReferencesResolve(DeleteClient(clients, reservations, id).store, reservations)
  {
    var step := DeleteClient(clients, reservations, id);
    if step.reply.Success? {
      forall k | k in reservations
        ensures reservations[k].clientId in step.store
      {
        assert reservations[k].clientId != id;
      }
    }
  }

  /** An update never removes a client, so it keeps references valid. */
  lemma PutKeepsReferences(clients: ClientStore, reservations: ReservationStore, id: int, body: ClientBody)
    requires ReferencesResolve(clients, reservations)
    ensures ReferencesResolve(PutClient(clients, id, body).store, reservations)
  {
  }

  /** Once deleted, a client is not found. */
  lemma GetAfterDelete(clients: ClientStore, reservations: ReservationStore, id: int)
    requires DeleteClient(clients, reservations, id).reply.Success?
    ensures GetClient(DeleteClient(clients, reservations, id).store, id) == Failure(NotFound)
  {
  }
}

=== FILE: legacy.dfy ===
/** The older reservation controller kept beside the main one: a create
    without trimming or status default, a listing with a case-insensitive
    status filter and its own status ternary, and an inline discount patch.
    Each operation is related to its counterpart in the main controller. */
module Legacy {
  import opened Text
  import opened Model
  import opened Pricing
  import opened Status
  import opened Overlap
  import opened Listing
  import opened Admission

  /** The legacy overlap test: any stored booking of the room whose interval
      intersects the candidate's, with no booking left out. */
  predicate LegacyConflict(store: ReservationStore, cand: Reservation) {
    exists k :: k in store && store[k].roomId == cand.roomId
                && Intersects(cand.start, cand.end, store[k].start, store[k].end)
  }

  /** The legacy test finds everything the main test finds, and on top of it
      the stored booking that carries the candidate's own id. */
  lemma LegacyConflictIsWider(store: ReservationStore, cand: Reservation)
    requires WellKeyed(store)
    ensures LegacyConflict(store, cand) <==>
            HasConflict(store, cand, cand.id)
            || (cand.id in store && store[cand.id].roomId == cand.roomId
                && Intersects(store[cand.id].start, store[cand.id].end, cand.start, cand.end))
  {
    if LegacyConflict(store, cand) {
      var k :| k in store && store[k].roomId == cand.roomId
               && Intersects(cand.start, cand.end, store[k].start, store[k].end);
      IntersectsSymmetric(cand.start, cand.end, store[k].start, store[k].end);
      if k != cand.id {
        assert Conflicts(store[k], cand, cand.id);
      }
    }
    if HasConflict(store, cand, cand.id) {
      var k :| k in store && Conflicts(store[k], cand, cand.id);
      IntersectsSymmetric(cand.start, cand.end, store[k].start, store[k].end);
    }
    if cand.id in store && store[cand.id].roomId == cand.roomId
       && Intersects(store[cand.id].start, store[cand.id].end, cand.start, cand.end) {
      IntersectsSymmetric(cand.start, cand.end, store[cand.id].start, store[cand.id].end);
    }
  }

  /** `CriarReserva`: annotations, the interval, the overlap test, then the
      booking is priced at `now` and inserted as sent.  A non-zero body id
      fails at the insert, as in the main controller. */
  function CreateReservation(store: ReservationStore, body: Reservation, now: int, newId: int)
    : (step: Step<ReservationStore, Reservation>)
    requires newId > 0 && newId !in store
    ensures step.reply.Failure? ==> step.store == store
    ensures !Valid(body) ==> step.reply == Failure(InvalidFields)
    ensures Valid(body) && body.end <= body.start ==> step.reply == Failure(InvalidInterval)
    ensures Valid(body) && body.end > body.start && LegacyConflict(store, body)
            ==> step.reply == Failure(Overlap)
    ensures Valid(body) && body.end > body.start && !LegacyConflict(store, body) && body.id != 0
            ==> step.reply == Failure(StorageError)
    ensures step.reply.Success? <==>
            Valid(body) && body.end > body.start && !LegacyConflict(store, body) && body.id == 0
    ensures step.reply.Success? ==>
      var saved := step.reply.value;
      && step.store == store[newId := saved]
      && saved.id == newId
      && Priced(saved)
      && SameExceptPricing(saved, body.(id := newId))
      && saved.discount == (if DiscountApplies(body, now) then body.discount else 0.0)
  {
    if !Valid(body) then Step(store, Failure(InvalidFields))
    else if body.end <= body.start then Step(store, Failure(InvalidInterval))
    else if LegacyConflict(store, body) then Step(store, Failure(Overlap))
    else
      var priced := Price(body, now).value;
      if body.id != 0 then Step(store, Failure(StorageError))
      else
        var saved := priced.(id := newId);
        Step(store[newId := saved], Success(saved))
  }

  /** For a new booking (id 0) on a well-keyed table the two creates accept
      the same requests and store the same booking, except that the main
      controller trims the texts and defaults a missing payment status. */
  lemma CreateAgreesWithPost(store: ReservationStore, body: Reservation, now: int, newId: int)
    requires WellKeyed(store) && newId > 0 && newId !in store && body.id == 0
    ensures var legacy := CreateReservation(store, body, now, newId);
            var main := PostReservation(store, body, now, newId);
            && legacy.reply.Success? == main.reply.Success?
            && (legacy.reply.Failure? ==> legacy.reply.error == main.reply.error)
            && (legacy.reply.Success? ==>
                  main.reply.value == legacy.reply.value.(title := Trim(body.title),
                                                          responsible := Trim(body.responsible),
                                                          paymentStatus := DefaultStatus(body.paymentStatus)))
  {
    LegacyConflictIsWider(store, body);
  }

  /** A create keeps the table consistent. */
  lemma CreatePreservesConsistency(store: ReservationStore, body: Reservation, now: int, newId: int)
    requires Consistent(store) && newId > 0 && newId !in store
    ensures Consistent(CreateReservation(store, body, now, newId).store)
  {
    var step := CreateReservation(store, body, now, newId);
    if step.reply.Success? {
      var saved := step.reply.value;
      var s' := step.store;
      forall j, k | j in s' && k in s' && j != k && s'[j].roomId == s'[k].roomId
        ensures !Intersects(s'[j].start, s'[j].end, s'[k].start, s'[k].end)
      {
        if j == newId {
          assert !Intersects(body.start, body.end, store[k].start, store[k].end);
        } else if k == newId {
          assert !Intersects(body.start, body.end, store[j].start, store[j].end);
          IntersectsSymmetric(s'[j].start, s'[j].end, s'[k].start, s'[k].end);
        }
      }
    }
  }

  /** The status ternary of the legacy listing: ongoing first, then closed,
      then imminent up to and including 24 hours ahead, else upcoming. */
  function LegacyStatus(start: int, end: int, now: int): (s: Status)
    ensures s == Ongoing <==> start <= now && end >= now
    ensures s == Closed <==> end < now && !(start <= now && end >= now)
    ensures s == Imminent <==> now < start <= now + DAY && end >= now
  {
    if start <= now && end >= now then Ongoing
    else if end < now then Closed
    else if start > now && start <= now + DAY then Imminent
    else Upcoming
  }

  /** The ternary disagrees with `CalcularStatus` exactly on a booking that
      has not ended and starts exactly 24 hours from now. */
  lemma LegacyStatusDiffers(start: int, end: int, now: int)
    ensures LegacyStatus(start, end, now) != Classify(start, end, now) <==> start == now + DAY && end >= now
    ensures start == now + DAY && end >= now ==>
              LegacyStatus(start, end, now) == Imminent && Classify(start, end, now) == Upcoming
  {
  }

  /** For a booking that does not end before it starts, the ternary names
      the one status filter that selects it. */
  lemma LegacyStatusIsFilter(start: int, end: int, now: int)
    requires start <= end
    ensures forall s: Status :: InFilter(s, start, end, now) <==> s == LegacyStatus(start, end, now)
  {
    FiltersPartition(start, end, now);
  }

  /** The lower-case name the legacy listing compares a folded status name
      against. */
  function LowerLabel(s: Status): string {
    match s
    case Closed => "encerradas"
    case Ongoing => "em andamento"
    case Imminent => "futuras proximas"
    case Upcoming => "futuras normais"
  }

  /** The legacy status filter: a missing or empty name selects none; any
      other name is lower-cased and compared with the four lower-case
      labels; a name matching none of them selects none. */
  function ParseIgnoreCase(name: Option<string>): (f: Option<Status>)
    ensures f.Some? <==> name.Some? && exists s: Status :: LowerLabel(s) == Lower(name.value)
    ensures f.Some? ==> LowerLabel(f.value) == Lower(name.value)
  {
    if name.None? || name.value == "" then None
    else
      var n := Lower(name.value);
      if n == LowerLabel(Ongoing) then Some(Ongoing)
      else if n == LowerLabel(Imminent) then Some(Imminent)
      else if n == LowerLabel(Upcoming) then Some(Upcoming)
      else if n == LowerLabel(Closed) then Some(Closed)
      else None
  }

  /** The capital of a label folds to its lower-case letter and the rest of
      the label has no capital to fold. */
  lemma FoldCapitalized(name: string, folded: string)
    requires |name| == |folded| > 0 && 'A' <= name[0] <= 'Z' && folded[0] == LowerChar(name[0])
    requires forall i :: 1 <= i < |name| ==> !('A' <= name[i] <= 'Z') && folded[i] == name[i]
    ensures Lower(name) == folded
  {
  }

  /** Each lower-case label is the label folded. */
  lemma LowerLabelIsFolded(s: Status)
    ensures Lower(Label(s)) == LowerLabel(s)
  {
    match s
    case Closed => FoldCapitalized("Encerradas", "encerradas");
    case Ongoing => FoldCapitalized("Em andamento", "em andamento");
    case Imminent => FoldCapitalized("Futuras proximas", "futuras proximas");
    case Upcoming => FoldCapitalized("Futuras normais", "futuras normais");
  }

  /** Every name the main listing recognises the legacy listing recognises
      as the same status, whatever the letter case it is sent in. */
  lemma ParseIgnoreCaseWidens(name: string)
    requires ParseExact(Some(name)).Some?
    ensures ParseIgnoreCase(Some(name)) == ParseExact(Some(name))
    ensures ParseIgnoreCase(Some(Lower(name))) == ParseExact(Some(name))
  {
    var s := ParseExact(Some(name)).value;
    assert name == Label(s);
    LowerLabelIsFolded(s);
    LowerIdempotent(name);
    assert Lower(name) == LowerLabel(s) && Lower(Lower(name)) == LowerLabel(s);
  }

  /** `ListarReservas`: the same filters, order, count and page as the main
      listing, with the case-insensitive status name and the legacy status
      ternary on each item; it fails, as the main listing does, when the
      database refuses the page query. */
  function ListReservations(rows: seq<Reservation>, page: int, size: int, status: Option<string>,
                            from: Option<int>, to: Option<int>, now: int): (res: Result<Envelope, Rejection>)
    ensures res.Failure? <==> size < 0 || (size > 0 && page < 1)
    ensures res.Failure? ==> res.error == QueryFailed
    ensures size == 0 ==> res.Success? && res.value.items == [] && res.value.totalPages == None
    ensures res.Success? ==>
            var l := res.value;
            var q := Query(rows, from, to, ParseIgnoreCase(status), now);
            && size >= 0
            && l.totalCount == |q|
            && l.totalPages == TotalPages(|q|, size)
            && l.page == page && l.pageSize == size
            && |l.items| == |Page(q, page, size).value|
            && forall i :: 0 <= i < |l.items| ==> l.items[i].booking == Page(q, page, size).value[i]
    ensures res.Success? ==>
            var l := res.value;
            && |l.items| <= size
            && forall i :: 0 <= i < |l.items| ==>
                 && l.items[i].booking in rows
                 && Selected(l.items[i].booking, from, to, ParseIgnoreCase(status), now)
                 && l.items[i].status == LegacyStatus(l.items[i].booking.start, l.items[i].booking.end, now)
  {
    var q := Query(rows, from, to, ParseIgnoreCase(status), now);
    match Page(q, page, size)
    case Failure(e) => Failure(e)
    case Success(shown) =>
      var items := seq(|shown|, i requires 0 <= i < |shown| =>
                         Listed(shown[i], LegacyStatus(shown[i].start, shown[i].end, now)));
      assert forall i :: 0 <= i < |shown| ==> shown[i] in q;
      Success(Envelope(items, |q|, TotalPages(|q|, size), page, size))
  }

  /** With no status, or with a status spelled exactly as a label, the
      legacy listing and `GetReservas` answer the same rows in the same pages
      and the same counts; an item's label differs only for a booking that
      has not ended and starts exactly 24 hours from now. */
  lemma ListAgreesWithGet(rows: seq<Reservation>, page: int, size: int, status: Option<string>,
                          from: Option<int>, to: Option<int>, now: int)
    requires status.None? || ParseExact(status).Some?
    ensures var l := ListReservations(rows, page, size, status, from, to, now);
            var g := GetReservations(rows, page, size, status, from, to, now);
            && (l.Success? <==> g.Success?)
            && (l.Failure? ==> l.error == g.error)
            && (l.Success? ==>
                  && l.value.totalCount == g.value.totalCount
                  && l.value.totalPages == g.value.totalPages
                  && |l.value.items| == |g.value.items|
                  && forall i :: 0 <= i < |l.value.items| ==>
                       && l.value.items[i].booking == g.value.items[i].booking
                       && (l.value.items[i].status != g.value.items[i].status <==>
                             l.value.items[i].booking.start == now + DAY && l.value.items[i].booking.end >= now))
  {
    if status.Some? {
      ParseIgnoreCaseWidens(status.value);
    }
    var l := ListReservations(rows, page, size, status, from, to, now);
    var g := GetReservations(rows, page, size, status, from, to, now);
    if l.Success? {
      forall i | 0 <= i < |l.value.items|
        ensures l.value.items[i].status != g.value.items[i].status <==>
                  l.value.items[i].booking.start == now + DAY && l.value.items[i].booking.end >= now
      {
        var b := l.value.items[i].booking;
        LegacyStatusDiffers(b.start, b.end, now);
      }
    }
  }

  /** `AtualizarDescontoInline`: the lookup comes before the range check,
      no status guard is applied, and a pricing error is answered as a bad
      request with nothing saved. */
  function UpdateDiscountInline(store: ReservationStore, id: int, discount: real, now: int)
    : (step: Step<ReservationStore, DiscountReply>)
    ensures step.reply.Failure? ==> step.store == store
    ensures id !in store ==> step.reply == Failure(NotFound)
    ensures id in store && (discount < 0.0 || discount > 30.0) ==> step.reply == Failure(DiscountOutOfRange)
    ensures step.reply.Failure? && id in store && 0.0 <= discount <= 30.0 ==>
              step.reply.error == InvalidInterval && store[id].end <= store[id].start
    ensures step.reply.Success? ==> id in store && id in step.store
    ensures step.reply.Success? && id in step.store ==>
      var saved := step.store[id];
      && step.store == store[id := saved]
      && SameExceptPricing(store[id], saved)
      && Priced(saved)
      && saved.discount == (if store[id].start > now then discount else 0.0)
      && step.reply.value == DiscountReply(store[id].id, saved.discount, saved.total)
  {
    if id !in store then Step(store, Failure(NotFound))
    else if discount < 0.0 || discount > 30.0 then Step(store, Failure(DiscountOutOfRange))
    else
      match Price(store[id].(discount := discount), now)
      case Failure(e) => Step(store, Failure(e))
      case Success(saved) =>
        Step(store[id := saved], Success(DiscountReply(saved.id, saved.discount, saved.total)))
  }

  /** On a booking that has not started the inline patch does exactly what
      the main discount patch does. */
  lemma InlineAgreesOnFutureBookings(store: ReservationStore, id: int, discount: real, now: int)
    requires id in store && Priced(store[id]) && store[id].start > now && 0.0 <= discount <= 30.0
    ensures UpdateDiscountInline(store, id, discount, now) == PatchDiscount(store, id, discount, now)
  {
  }

  /** On a booking already running or over, the main patch refuses, while
      the inline patch succeeds and silently sets the discount to zero. */
  lemma InlineOnStartedBooking(store: ReservationStore, id: int, discount: real, now: int)
    requires id in store && Priced(store[id]) && store[id].start <= now && 0.0 <= discount <= 30.0
    ensures PatchDiscount(store, id, discount, now).reply == Failure(NotFuture)
    ensures var step := UpdateDiscountInline(store, id, discount, now);
            && step.reply.Success?
            && step.reply.value.discount == 0.0
            && step.reply.value.total == Gross(store[id])
  {
  }

  /** The two patches check in a different order: an unknown id with an out
      of range discount is "not found" here and "out of range" there. */
  lemma CheckOrderDiffers(store: ReservationStore, id: int, discount: real, now: int)
    requires id !in store && discount > 30.0
    ensures UpdateDiscountInline(store, id, discount, now).reply == Failure(NotFound)
    ensures PatchDiscount(store, id, discount, now).reply == Failure(DiscountOutOfRange)
  {
  }

  /** The inline patch keeps the table consistent. */
  lemma InlinePreservesConsistency(store: ReservationStore, id: int, discount: real, now: int)
    requires Consistent(store)
    ensures Consistent(UpdateDiscountInline(store, id, discount, now).store)
  {
    var step := UpdateDiscountInline(store, id, discount, now);
    if step.reply.Success? {
      var s' := step.store;
      forall j, k | j in s' && k in s' && j != k && s'[j].roomId == s'[k].roomId
        ensures !Intersects(s'[j].start, s'[j].end, s'[k].start, s'[k].end)
      {
        assert s'[j].start == store[j].start && s'[j].end == store[j].end && s'[j].roomId == store[j].roomId;
        assert s'[k].start == store[k].start && s'[k].end == store[k].end && s'[k].roomId == store[k].roomId;
      }
    }
  }
}

=== FILE: listing.dfy ===
/** The reservation listing: the date-window and status filters, the
    ordering by start, the `Skip`/`Take` page and the page count. */
module Listing {
  import opened Model
  import opened Status

  /** `DataInicio >= dataInicio` and `DataFim <= dataFim`, each only when
      given. */
  predicate InDateWindow(r: Reservation, from: Option<int>, to: Option<int>) {
    && (from.Some? ==> r.start >= from.value)
    && (to.Some? ==> r.end <= to.value)
  }

  /** The booking passes the date window and, when a status was recognised,
      that status's filter. */
  predicate Selected(r: Reservation, from: Option<int>, to: Option<int>, filter: Option<Status>, now: int) {
    InDateWindow(r, from, to) && (filter.Some? ==> InFilter(filter.value, r.start, r.end, now))
  }

  /** The rows the `Where` clauses keep, in their original order. */
  function Where(rows: seq<Reservation>, from: Option<int>, to: Option<int>, filter: Option<Status>, now: int)
    : (out: seq<Reservation>)
    ensures forall r :: multiset(out)[r] == if Selected(r, from, to, filter, now) then multiset(rows)[r] else 0
    ensures multiset(out) <= multiset(rows)
    ensures forall r :: r in out <==> r in rows && Selected(r, from, to, filter, now)
  {
    if rows == [] then []
    else
      var rest := Where(rows[1..], from, to, filter, now);
      assert rows == [rows[0]] + rows[1..];
      if Selected(rows[0], from, to, filter, now) then [rows[0]] + rest else rest
  }

  /** The start instant, the key the listing orders by. */
  function StartOf(r: Reservation): int {
    r.start
  }

  /** Non-decreasing keys along the sequence. */
  predicate SortedBy<T>(s: seq<T>, key: T -> int) {
    forall i, j :: 0 <= i < j < |s| ==> key(s[i]) <= key(s[j])
  }

  /** An element placed before an ordered sequence whose first key is no
      smaller gives an ordered sequence. */
  lemma SortedCons<T>(a: T, s: seq<T>, key: T -> int)
    requires SortedBy(s, key) && (s == [] || key(a) <= key(s[0]))
    ensures SortedBy([a] + s, key)
  {
    var out := [a] + s;
    forall i, j | 0 <= i < j < |out|
      ensures key(out[i]) <= key(out[j])
    {
      assert out[j] == s[j - 1];
      if i > 0 {
        assert out[i] == s[i - 1];
      } else {
        assert key(s[0]) <= key(s[j - 1]);
      }
    }
  }

  /** Places `x` before the first element whose key is no smaller. */
  function InsertBy<T>(x: T, s: seq<T>, key: T -> int): (out: seq<T>)
    requires SortedBy(s, key)
    ensures SortedBy(out, key)
    ensures |out| == |s| + 1 && (out[0] == x || (s != [] && out[0] == s[0]))
  {
    if s == [] || key(x) <= key(s[0]) then
      SortedCons(x, s, key);
      [x] + s
    else
      var rest := InsertBy(x, s[1..], key);
      assert |s| > 1 ==> key(s[0]) <= key(s[1]);
      SortedCons(s[0], rest, key);
      [s[0]] + rest
  }

  /** Insertion adds exactly the inserted element. */
  lemma {:induction false} InsertByAdds<T>(x: T, s: seq<T>, key: T -> int)
    requires SortedBy(s, key)
    ensures multiset(InsertBy(x, s, key)) == multiset(s) + multiset{x}
  {
    if s != [] && key(x) > key(s[0]) {
      InsertByAdds(x, s[1..], key);
      assert s == [s[0]] + s[1..];
    }
  }

  /** `OrderBy(key)`: an insertion sort, ordered by the key and a
      permutation of its input. */
  function SortBy<T>(rows: seq<T>, key: T -> int): (out: seq<T>)
    ensures SortedBy(out, key)
    ensures multiset(out) == multiset(rows)
  {
    if rows == [] then []
    else
      var rest := SortBy(rows[1..], key);
      InsertByAdds(rows[0], rest, key);
      assert rows == [rows[0]] + rows[1..];
      InsertBy(rows[0], rest, key)
  }

  /** The filtered rows in start order: a permutation of exactly the rows
      the filters select. */
  function Query(rows: seq<Reservation>, from: Option<int>, to: Option<int>, filter: Option<Status>, now: int)
    : (out: seq<Reservation>)
    ensures SortedBy(out, StartOf)
    ensures forall r :: multiset(out)[r] == if Selected(r, from, to, filter, now) then multiset(rows)[r] else 0
    ensures multiset(out) <= multiset(rows)
    ensures forall r :: r in out <==> r in rows && Selected(r, from, to, filter, now)
  {
    var kept := Where(rows, from, to, filter, now);
    var out := SortBy(kept, StartOf);
    forall r
      ensures r in out <==> r in kept
    {
      assert r in out <==> r in multiset(out);
      assert r in kept <==> r in multiset(kept);
    }
    out
  }

  /** The number of rows `Skip((pagina - 1) * tamanhoPagina)` asks to pass
      over, the OFFSET of the SQL statement. */
  function Offset(page: int, size: int): int {
    (page - 1) * size
  }

  /** A positive page size makes the offset negative exactly for a page
      number below one. */
  lemma NegativeOffset(page: int, size: int)
    requires size >= 1
    ensures Offset(page, size) < 0 <==> page < 1
  {
    if page >= 1 {
      assert (page - 1) * size >= 0;
    } else {
      assert (page - 1) * size <= -size;
    }
  }

  /** `Skip((pagina - 1) * tamanhoPagina).Take(tamanhoPagina)` as EF Core
      hands it to SQL Server.  A page size of zero makes the offset zero and
      the `Take(0)` an empty query, so the page is empty whatever the page
      number; otherwise the database runs `OFFSET … ROWS FETCH NEXT … ROWS
      ONLY`, refusing a negative fetch and a negative offset, and the page is
      the run of at most `size` rows starting at the offset. */
  function Page<T>(rows: seq<T>, page: int, size: int): (res: Result<seq<T>, Rejection>)
    ensures res.Failure? <==> size < 0 || (size > 0 && page < 1)
    ensures res.Failure? ==> res.error == QueryFailed
    ensures size == 0 ==> res == Success([])
    ensures res.Success? ==>
      var out := res.value;
      && Offset(page, size) >= 0
      && |out| <= size
      && (forall i :: 0 <= i < |out| ==> Offset(page, size) + i < |rows| && out[i] == rows[Offset(page, size) + i])
      && |out| == (if Offset(page, size) >= |rows| then 0
                   else if Offset(page, size) + size <= |rows| then size
                   else |rows| - Offset(page, size))
  {
    if size < 0 then Failure(QueryFailed)
    else if size == 0 then Success([])
    else
      NegativeOffset(page, size);
      var skip := Offset(page, size);
      if skip < 0 then Failure(QueryFailed)
      else if skip >= |rows| then Success([])
      else Success(rows[skip..if skip + size < |rows| then skip + size else |rows|])
  }

  /** `(int)Math.Ceiling(total / (double)tamanhoPagina)` for a page size the
      page query lets through: for a positive size, the least number of pages
      of `size` rows that hold `count` rows.  For size zero the division gives
      NaN or infinity, whose `int` cast the model leaves unspecified
      (`None`). */
  function TotalPages(count: nat, size: int): (pages: Option<nat>)
    requires size >= 0
    ensures pages.Some? <==> size > 0
    ensures pages.Some? ==> count <= pages.value * size
    ensures pages.Some? ==> pages.value == 0 || (pages.value - 1) * size < count
  {
    if size == 0 then None
    else
      var p := (count + size - 1) / size;
      var m := (count + size - 1) % size;
      assert p * size + m == count + size - 1;
      Some(p)
  }

  /** A product of a positive factor orders the other factors. */
  lemma ProductOrdersFactors(a: int, b: int, c: int)
    requires c > 0 && a * c < b * c
    ensures a < b
  {
  }

  /** Row `q * size + r` of the ordered listing is item `r` of page `q + 1`,
      and that page is one of the `TotalPages` pages. */
  lemma PageHolds<T>(rows: seq<T>, q: int, r: int, size: int)
    requires size > 0 && q >= 0 && 0 <= r < size && q * size + r < |rows|
    ensures && 1 <= q + 1 <= TotalPages(|rows|, size).value
            && Page(rows, q + 1, size).Success?
            && r < |Page(rows, q + 1, size).value|
            && Page(rows, q + 1, size).value[r] == rows[q * size + r]
  {
    var o := q * size;
    assert o >= 0 by {
      ProductOrdersFactors(-1, q, size);
    }
    assert Offset(q + 1, size) == o;
    var pages := TotalPages(|rows|, size).value;
    ProductOrdersFactors(q, pages, size);
  }

  /** Row `i` of the ordered listing is item `i % size` of page
      `i / size + 1`, and that page is one of the `TotalPages` pages. */
  lemma PageLocates<T>(rows: seq<T>, i: int, size: int)
    requires size > 0 && 0 <= i < |rows|
    ensures var p := i / size + 1;
            && 1 <= p <= TotalPages(|rows|, size).value
            && Page(rows, p, size).Success?
            && i % size < |Page(rows, p, size).value|
            && Page(rows, p, size).value[i % size] == rows[i]
  {
    DivSplits(i, size);
    PageHolds(rows, i / size, i % size, size);
  }

  /** A non-negative index splits into whole pages and a remainder. */
  lemma DivSplits(i: int, size: int)
    requires size > 0 && i >= 0
    ensures (i / size) * size + i % size == i
    ensures i / size >= 0 && 0 <= i % size < size
  {
  }

  /** One item of the listing: the booking and its computed status. */
  datatype Listed = Listed(booking: Reservation, status: Status)

  /** The envelope `GetReservas` answers with. */
  datatype Envelope = Envelope(items: seq<Listed>, totalCount: nat, totalPages: Option<nat>, page: int, pageSize: int)

  /** `GetReservas`: filter by date window and exact status name, order by
      start, count, cut out the page and label each item with
      `CalcularStatus`.  The request fails when the database refuses the
      page query; a page size of zero answers an empty page. */
  function GetReservations(rows: seq<Reservation>, page: int, size: int, status: Option<string>,
                           from: Option<int>, to: Option<int>, now: int): (res: Result<Envelope, Rejection>)
    ensures res.Failure? <==> size < 0 || (size > 0 && page < 1)
    ensures res.Failure? ==> res.error == QueryFailed
    ensures size == 0 ==> res.Success? && res.value.items == [] && res.value.totalPages == None
    ensures res.Success? ==>
            var l := res.value;
            var q := Query(rows, from, to, ParseExact(status), now);
            && size >= 0
            && l.totalCount == |q|
            && l.totalPages == TotalPages(|q|, size)
            && l.page == page && l.pageSize == size
            && |l.items| == |Page(q, page, size).value|
            && forall i :: 0 <= i < |l.items| ==> l.items[i].booking == Page(q, page, size).value[i]
    ensures res.Success? ==>
            var l := res.value;
            && |l.items| <= size
            && forall i :: 0 <= i < |l.items| ==>
                 && l.items[i].booking in rows
                 && Selected(l.items[i].booking, from, to, ParseExact(status), now)
                 && l.items[i].status == Classify(l.items[i].booking.start, l.items[i].booking.end, now)
  {
    var q := Query(rows, from, to, ParseExact(status), now);
    match Page(q, page, size)
    case Failure(e) => Failure(e)
    case Success(shown) =>
      var items := seq(|shown|, i requires 0 <= i < |shown| =>
                         Listed(shown[i], Classify(shown[i].start, shown[i].end, now)));
      assert forall i :: 0 <= i < |shown| ==> shown[i] in q;
      Success(Envelope(items, |q|, TotalPages(|q|, size), page, size))
  }
}

=== FILE: model.dfy ===
/** The entities of the reservation manager: the `Reserva` and `Cliente`
    records, the stores that hold them, and the outcome types every
    operation returns. */
module Model {
  import opened Text

  /** Instants are whole seconds on one UTC time line. */
  const HOUR: int := 3600
  const DAY: int := 24 * HOUR

  datatype Option<T> = None | Some(value: T)

  datatype Result<T, E> = Success(value: T) | Failure(error: E)

  /** A booking of one room (`Reserva`).  `total` is the `ValorTotal` whose
      setter is private: only pricing writes it. */
  datatype Reservation = Reservation(
    id: int,                        // Id, assigned by the database
    clientId: int,                  // ClienteId
    roomId: int,                    // SalaId
    title: string,                  // TituloReserva
    responsible: string,            // Responsavel
    start: int,                     // DataInicio
    end: int,                       // DataFim
    participants: int,              // ParticipantesPrevistos
    hourlyRate: real,               // ValorHora
    discount: real,                 // Desconto, a percentage
    total: real,                    // ValorTotal
    paymentStatus: Option<string>   // StatusPagamento, nullable
  )

  /** A client with the fields the clients controller reads and writes
      (`CpfCnpj` included). */
  datatype Client = Client(
    id: int,
    name: string,                   // Nome
    taxId: Option<string>,          // CpfCnpj
    phone: Option<string>,          // Telefone
    email: Option<string>           // Email
  )

  /** Why a request was turned down. */
  datatype Rejection =
    | InvalidFields        // data annotations failed (automatic 400)
    | IdMismatch           // route id differs from body id
    | NotFound             // no record under the route id
    | InvalidInterval      // end is not after start
    | Overlap              // another booking holds the room
    | DiscountOutOfRange   // discount outside 0..30
    | NotFuture            // discount on a closed or running booking
    | PricingFailed        // pricing threw outside any handler (500)
    | StorageError         // the database refused the insert
    | QueryFailed          // the database refused the listing query (500)
    | HasReservations      // client still referenced by bookings

  type ReservationStore = map<int, Reservation>
  type ClientStore = map<int, Client>

  /** The new store together with what the request answered.  A rejected
      request hands back the store it was given. */
  datatype Step<S, T> = Step(store: S, reply: Result<T, Rejection>)

  const PENDING: string := "Pendente"
  const PAID: string := "Pago"

  /** Rounding to an integer with ties going to the even neighbour, as
      `Math.Round` and `Convert.ToInt32` do on a decimal. */
  function RoundHalfEven(y: real): (n: int)
    ensures n as real - 0.5 <= y <= n as real + 0.5
    ensures y == n as real - 0.5 || y == n as real + 0.5 ==> n % 2 == 0
  {
    var f := y.Floor;
    var frac := y - f as real;
    if frac < 0.5 then f
    else if frac > 0.5 then f + 1
    else if f % 2 == 0 then f
    else f + 1
  }

  /** `[Range(0, 30)]` on the decimal `Desconto`: the integer form of the
      attribute first converts the value with `Convert.ToInt32` and then
      compares the converted integer with the bounds. */
  predicate DiscountAnnotationAccepts(d: real) {
    0 <= RoundHalfEven(d) <= 30
  }

  /** Because of that rounding the annotation accepts exactly the discounts
      in [-0.5, 30.5], not [0, 30]. */
  lemma DiscountAnnotationRange(d: real)
    ensures DiscountAnnotationAccepts(d) <==> -0.5 <= d <= 30.5
  {
    var n := RoundHalfEven(d);
    assert -0.5 <= d <= 30.5 ==> n != -1 && n != 31;
  }

  /** The data annotations on `Reserva`, checked before any action runs. */
  predicate Valid(r: Reservation) {
    && !AllWhiteSpace(r.title) && 3 <= |r.title| <= 150
    && !AllWhiteSpace(r.responsible) && |r.responsible| <= 100
    && 1 <= r.participants <= 100
    && 0.01 <= r.hourlyRate <= 9999.99
    && DiscountAnnotationAccepts(r.discount)
    && (r.paymentStatus.Some? ==> |r.paymentStatus.value| <= 50)
  }
}

=== FILE: overlap.dfy ===
/** The double-booking test of the reservation controller: two bookings of
    the same room conflict when their intervals strictly intersect; the
    booking being edited is left out of the comparison. */
module Overlap {
  import opened Model

  /** `a.start < b.end && a.end > b.start`. */
  predicate Intersects(aStart: int, aEnd: int, bStart: int, bEnd: int) {
    aStart < bEnd && aEnd > bStart
  }

  /** The conflict test the controller runs against each stored booking
      `existing`: same room, different id, intersecting intervals. */
  predicate Conflicts(existing: Reservation, cand: Reservation, exclude: int) {
    && existing.roomId == cand.roomId
    && existing.id != exclude
    && Intersects(existing.start, existing.end, cand.start, cand.end)
  }

  /** Some stored booking conflicts with the candidate. */
  predicate HasConflict(store: ReservationStore, cand: Reservation, exclude: int) {
    exists k :: k in store && Conflicts(store[k], cand, exclude)
  }

  /** No two stored bookings of one room intersect. */
  predicate NoOverlaps(store: ReservationStore) {
    forall j, k :: j in store && k in store && j != k && store[j].roomId == store[k].roomId
      ==> !Intersects(store[j].start, store[j].end, store[k].start, store[k].end)
  }

  /** The intersection test does not depend on which interval is the
      stored one. */
  lemma IntersectsSymmetric(aStart: int, aEnd: int, bStart: int, bEnd: int)
    ensures Intersects(aStart, aEnd, bStart, bEnd) <==> Intersects(bStart, bEnd, aStart, aEnd)
  {
  }

  /** Two distinct bookings conflict in either direction or in neither. */
  lemma ConflictsSymmetric(a: Reservation, b: Reservation)
    ensures Conflicts(a, b, b.id) <==> Conflicts(b, a, a.id)
  {
  }

  /** Back-to-back bookings never conflict. */
  lemma TouchingNeverIntersects(aStart: int, aEnd: int, bStart: int, bEnd: int)
    requires aEnd == bStart || bEnd == aStart
    ensures !Intersects(aStart, aEnd, bStart, bEnd)
  {
  }

  /** The instant `t` lies in the half-open interval `[start, end)`. */
  predicate Within(t: int, start: int, end: int) {
    start <= t < end
  }

  /** For proper half-open intervals `[start, end)`, the strict test holds
      exactly when some instant lies in both. */
  lemma IntersectsIffSharedInstant(aStart: int, aEnd: int, bStart: int, bEnd: int)
    requires aStart < aEnd && bStart < bEnd
    ensures Intersects(aStart, aEnd, bStart, bEnd) <==>
            exists t :: Within(t, aStart, aEnd) && Within(t, bStart, bEnd)
  {
    if Intersects(aStart, aEnd, bStart, bEnd) {
      var t := if aStart < bStart then bStart else aStart;
      assert Within(t, aStart, aEnd) && Within(t, bStart, bEnd);
    }
  }

  /** A room with a 09:00-10:00 booking refuses 09:30-10:30 and accepts
      10:00-11:00 (times in seconds from midnight). */
  lemma MeetingRoomExample(existing: Reservation, cand: Reservation)
    requires existing.roomId == cand.roomId && existing.id != cand.id
    requires existing.start == 9 * HOUR && existing.end == 10 * HOUR
    ensures cand.start == 9 * HOUR + 30 * 60 && cand.end == 10 * HOUR + 30 * 60
            ==> HasConflict(map[existing.id := existing], cand, cand.id)
    ensures cand.start == 10 * HOUR && cand.end == 11 * HOUR
            ==> !HasConflict(map[existing.id := existing], cand, cand.id)
  {
    var m := map[existing.id := existing];
    assert existing.id in m && m[existing.id] == existing;
  }
}

=== FILE: pricing.dfy ===
/** `Reserva.CalcularValores`: the gross amount is the booked hours times
    the hourly rate; the discount is honoured only for a booking whose start
    lies strictly in the future, and is otherwise forced to zero. */
module Pricing {
  import opened Model

  /** Booked duration in hours, fractions included. */
  function Hours(r: Reservation): real {
    (r.end - r.start) as real / HOUR as real
  }

  /** Hours times hourly rate, before any discount. */
  function Gross(r: Reservation): real {
    Hours(r) * r.hourlyRate
  }

  /** `gross - gross * discount / 100`. */
  function Net(gross: real, discount: real): real {
    gross - gross * discount / 100.0
  }

  /** The discount survives pricing only for a booking that has not started
      and only when it lies in (0, 30]. */
  predicate DiscountApplies(r: Reservation, now: int) {
    r.start > now && 0.0 < r.discount <= 30.0
  }

  /** What every priced booking satisfies, whatever instant it was priced
      at: a proper interval, a discount in range, and a total that is the
      gross amount less that discount. */
  predicate Priced(r: Reservation) {
    && r.end > r.start
    && 0.0 <= r.discount <= 30.0
    && r.total == Net(Gross(r), r.discount)
  }

  /** The two bookings agree on every field but `discount` and `total`. */
  predicate SameExceptPricing(a: Reservation, b: Reservation) {
    a.(discount := 0.0, total := 0.0) == b.(discount := 0.0, total := 0.0)
  }

  /** `CalcularValores(agora)`.  It throws when the end is not after the
      start, and otherwise writes only `discount` and `total`. */
  function Price(r: Reservation, now: int): (res: Result<Reservation, Rejection>)
    ensures res.Failure? <==> r.end <= r.start
    ensures res.Failure? ==> res.error == InvalidInterval
    ensures res.Success? ==> Priced(res.value) && SameExceptPricing(r, res.value)
    ensures res.Success? ==> (res.value.discount == r.discount <==> DiscountApplies(r, now) || r.discount == 0.0)
    ensures res.Success? && !DiscountApplies(r, now) ==> res.value.discount == 0.0 && res.value.total == Gross(r)
  {
    if r.end <= r.start then
      Failure(InvalidInterval)
    else if DiscountApplies(r, now) then
      Success(r.(total := Net(Gross(r), r.discount)))
    else
      Success(r.(discount := 0.0, total := Gross(r)))
  }

  /** A positive rate over a proper interval gives a positive gross amount. */
  lemma GrossPositive(r: Reservation)
    requires r.end > r.start && r.hourlyRate > 0.0
    ensures Gross(r) > 0.0
  {
    ProductPositive(Hours(r), r.hourlyRate);
  }

  /** The product of two positive numbers is positive. */
  lemma ProductPositive(x: real, y: real)
    requires x > 0.0 && y > 0.0
    ensures x * y > 0.0
  {
  }

  /** Taking off between 0 and 30 percent of a non-negative amount leaves
      between 70 and 100 percent of it. */
  lemma NetBounds(g: real, d: real)
    requires g >= 0.0 && 0.0 <= d <= 30.0
    ensures 0.7 * g <= Net(g, d) <= g
  {
    assert 0.0 <= g * d <= g * 30.0;
  }

  /** A discount never raises the price and never takes more than 30 %:
      `0.7 * gross <= total <= gross` for any non-negative rate. */
  lemma PricedBounds(r: Reservation)
    requires Priced(r) && r.hourlyRate >= 0.0
    ensures 0.7 * Gross(r) <= r.total <= Gross(r)
  {
    if r.hourlyRate > 0.0 {
      GrossPositive(r);
    } else {
      assert Gross(r) == 0.0;
    }
    NetBounds(Gross(r), r.discount);
  }

  /** A positive rate over a proper interval always bills something. */
  lemma PricedPositive(r: Reservation)
    requires Priced(r) && r.hourlyRate > 0.0
    ensures r.total > 0.0
  {
    GrossPositive(r);
    NetBounds(Gross(r), r.discount);
  }

  /** Pricing twice at the same instant gives what pricing once gave. */
  lemma PriceIdempotent(r: Reservation, now: int)
    requires Price(r, now).Success?
    ensures Price(Price(r, now).value, now) == Price(r, now)
  {
    var p := Price(r, now).value;
    assert Gross(p) == Gross(r);
    assert DiscountApplies(p, now) == DiscountApplies(r, now);
  }

  /** Whether a booking is priced depends only on its interval, rate,
      discount and total. */
  lemma PricedOnlyByPricingFields(a: Reservation, b: Reservation)
    requires a.start == b.start && a.end == b.end && a.hourlyRate == b.hourlyRate
    requires a.discount == b.discount && a.total == b.total
    ensures Gross(a) == Gross(b)
    ensures Priced(a) <==> Priced(b)
  {
  }

  /** For a discount in [0, 30], pricing keeps it for a
      booking that has not started and zeroes it for one that has. */
  lemma PriceKeepsFutureDiscount(r: Reservation, now: int)
    requires r.end > r.start && 0.0 <= r.discount <= 30.0
    ensures Price(r, now).value.discount == (if r.start > now then r.discount else 0.0)
  {
  }

  /** A priced booking whose discount is zero or still honoured at `now` is
      a fixed point of pricing: re-pricing rewrites nothing. */
  lemma PriceFixedPoint(r: Reservation, now: int)
    requires Priced(r) && (r.discount == 0.0 || r.start > now)
    ensures Price(r, now) == Success(r)
  {
    if !DiscountApplies(r, now) {
      assert r.discount == 0.0;
      assert r.total == Gross(r);
    }
  }

  /** Two hours at 100 per hour starting in 48 hours with 10 % off bill 180. */
  lemma DiscountedExample(now: int)
    ensures var r := Reservation(1, 1, 1, "Sprint", "Ana", now + 48 * HOUR, now + 50 * HOUR,
                                 5, 100.0, 10.0, 0.0, Some(PENDING));
            && Price(r, now).Success?
            && Price(r, now).value.total == 180.0
            && Price(r, now).value.discount == 10.0
  {
  }

  /** The same booking re-priced an hour after it started loses its
      discount and bills 200. */
  lemma StartedExample(now: int)
    ensures var r := Reservation(1, 1, 1, "Sprint", "Ana", now - HOUR, now + HOUR,
                                 5, 100.0, 10.0, 0.0, Some(PENDING));
            && Price(r, now).Success?
            && Price(r, now).value.total == 200.0
            && Price(r, now).value.discount == 0.0
  {
  }
}

=== FILE: reporting.dfy ===
/** The two dashboards of the reservation controller: the summary of
    `GetResumo` and the per-day series of `GetDadosGrafico`. */
module Reporting {
  import opened Text
  import opened Model
  import opened Pricing

  /** A payment status counts as paid when it is present and reads "pago"
      in any letter case. */
  predicate IsPaid(s: Option<string>) {
    s.Some? && Lower(s.value) == "pago"
  }

  /** The positions of the bookings whose end lies after `now`. */
  function ActiveIndices(rows: seq<Reservation>, now: int): set<int> {
    set i | 0 <= i < |rows| && rows[i].end > now
  }

  /** `Count(r => r.DataFim > agora)`: the number of bookings whose end lies
      after `now`. */
  function CountActive(rows: seq<Reservation>, now: int): (n: nat)
    ensures n == |ActiveIndices(rows, now)|
  {
    if rows == [] then 0
    else
      var last := |rows| - 1;
      var init := rows[..last];
      assert last !in ActiveIndices(init, now);
      assert ActiveIndices(rows, now)
             == ActiveIndices(init, now) + (if rows[last].end > now then {last} else {});
      CountActive(init, now) + (if rows[last].end > now then 1 else 0)
  }

  /** The sum of the totals of the rows `paid` selects: the paid ones, or
      the others. */
  function SumWhere(rows: seq<Reservation>, paid: bool): real {
    if rows == [] then 0.0
    else SumWhere(rows[..|rows| - 1], paid) + (if IsPaid(rows[|rows| - 1].paymentStatus) == paid then rows[|rows| - 1].total else 0.0)
  }

  /** The sum of all totals. */
  function SumTotal(rows: seq<Reservation>): real {
    if rows == [] then 0.0 else SumTotal(rows[..|rows| - 1]) + rows[|rows| - 1].total
  }

  /** The sum of the booked hours. */
  function SumHours(rows: seq<Reservation>): real {
    if rows == [] then 0.0 else SumHours(rows[..|rows| - 1]) + Hours(rows[|rows| - 1])
  }

  /** Realized and projected revenue split the total revenue: every booking
      is counted in exactly one of them. */
  lemma {:induction false} RevenuePartition(rows: seq<Reservation>)
    ensures SumWhere(rows, true) + SumWhere(rows, false) == SumTotal(rows)
  {
    if rows != [] {
      RevenuePartition(rows[..|rows| - 1]);
    }
  }

  /** Totals that are never negative give non-negative revenue on both
      sides of the split. */
  lemma {:induction false} RevenueNonNegative(rows: seq<Reservation>, paid: bool)
    requires forall i :: 0 <= i < |rows| ==> rows[i].total >= 0.0
    ensures SumWhere(rows, paid) >= 0.0
  {
    if rows != [] {
      RevenueNonNegative(rows[..|rows| - 1], paid);
    }
  }

  /** `Math.Round(x, 1)`: the nearest multiple of 0.1, ties to even tenths. */
  function Round1(x: real): (y: real)
    ensures -0.05 <= y - x <= 0.05
  {
    RoundHalfEven(x * 10.0) as real / 10.0
  }

  /** The envelope `GetResumo` answers with. */
  datatype Summary = Summary(active: nat, realized: real, projected: real, totalHours: real)

  /** `GetResumo`, one pass over the rows. */
  method Summarize(rows: seq<Reservation>, now: int) returns (s: Summary)
    ensures s.active == CountActive(rows, now)
    ensures s.realized == SumWhere(rows, true)
    ensures s.projected == SumWhere(rows, false)
    ensures s.totalHours == Round1(SumHours(rows))
  {
    var active := 0;
    var realized := 0.0;
    var projected := 0.0;
    var hours := 0.0;
    var i := 0;
    while i < |rows|
      invariant 0 <= i <= |rows|
      invariant active == CountActive(rows[..i], now)
      invariant realized == SumWhere(rows[..i], true)
      invariant projected == SumWhere(rows[..i], false)
      invariant hours == SumHours(rows[..i])
    {
      var r := rows[i];
      assert rows[..i + 1][..i] == rows[..i];
      if r.end > now {
        active := active + 1;
      }
      if IsPaid(r.paymentStatus) {
        realized := realized + r.total;
      } else {
        projected := projected + r.total;
      }
      hours := hours + Hours(r);
      i := i + 1;
    }
    assert rows[..i] == rows;
    s := Summary(active, realized, projected, Round1(hours));
  }

  /** One paid booking of 100 and one pending booking of 50 give realized
      revenue 100 and projected revenue 50. */
  lemma SummaryExample(paid: Reservation, pending: Reservation)
    requires paid.paymentStatus == Some("Pago") && paid.total == 100.0
    requires pending.paymentStatus == Some(PENDING) && pending.total == 50.0
    ensures SumWhere([paid, pending], true) == 100.0
    ensures SumWhere([paid, pending], false) == 50.0
  {
    var rows := [paid, pending];
    assert rows[..1] == [paid];
    assert [paid][..0] == [];
    assert Lower("Pago") == "pago";
    assert IsPaid(paid.paymentStatus);
    assert Lower(PENDING)[0] == 'p' && Lower(PENDING)[1] == 'e';
    assert !IsPaid(pending.paymentStatus);
    assert SumWhere([paid], true) == 100.0 && SumWhere([paid], false) == 0.0;
  }

  /** The chart covers bookings starting within 15 days either side of
      `now`, bounds included. */
  predicate InChartWindow(r: Reservation, now: int) {
    now - 15 * DAY <= r.start <= now + 15 * DAY
  }

  /** The UTC calendar day an instant falls on. */
  function DayOf(t: int): int {
    t / DAY
  }

  /** One point of the series: a day, its booking count and its revenue. */
  datatype Bucket = Bucket(day: int, count: nat, revenue: real)

  /** Bookings in the window that start on `day`. */
  function CountOn(rows: seq<Reservation>, now: int, day: int): nat {
    if rows == [] then 0
    else (if InChartWindow(rows[0], now) && DayOf(rows[0].start) == day then 1 else 0)
         + CountOn(rows[1..], now, day)
  }

  /** The summed totals of those bookings. */
  function RevenueOn(rows: seq<Reservation>, now: int, day: int): real {
    if rows == [] then 0.0
    else (if InChartWindow(rows[0], now) && DayOf(rows[0].start) == day then rows[0].total else 0.0)
         + RevenueOn(rows[1..], now, day)
  }

  /** Days strictly increase along the series. */
  predicate Chronological(bs: seq<Bucket>) {
    forall i, j :: 0 <= i < j < |bs| ==> bs[i].day < bs[j].day
  }

  /** The count the series shows for `day`, zero when it has no point. */
  function CountAt(bs: seq<Bucket>, day: int): nat {
    if bs == [] then 0 else if bs[0].day == day then bs[0].count else CountAt(bs[1..], day)
  }

  /** The revenue the series shows for `day`, zero when it has no point. */
  function RevenueAt(bs: seq<Bucket>, day: int): real {
    if bs == [] then 0.0 else if bs[0].day == day then bs[0].revenue else RevenueAt(bs[1..], day)
  }

  /** Every point counts at least one booking. */
  predicate NoEmptyBuckets(bs: seq<Bucket>) {
    forall i :: 0 <= i < |bs| ==> bs[i].count > 0
  }

  /** A chronological series shows nothing for a day before its first point. */
  lemma {:induction false} NothingBeforeFirst(bs: seq<Bucket>, day: int)
    requires Chronological(bs) && (bs == [] || day < bs[0].day)
    ensures CountAt(bs, day) == 0 && RevenueAt(bs, day) == 0.0
  {
    if bs != [] {
      NothingBeforeFirst(bs[1..], day);
    }
  }

  /** A point placed before a chronological series whose first day is later
      gives a chronological series; the lookups see the new point first. */
  lemma ChronologicalCons(b: Bucket, bs: seq<Bucket>)
    requires Chronological(bs) && (bs == [] || b.day < bs[0].day)
    ensures Chronological([b] + bs)
    ensures forall d :: CountAt([b] + bs, d) == (if d == b.day then b.count else CountAt(bs, d))
    ensures forall d :: RevenueAt([b] + bs, d) == (if d == b.day then b.revenue else RevenueAt(bs, d))
  {
    var out := [b] + bs;
    assert out[1..] == bs;
    forall i, j | 0 <= i < j < |out|
      ensures out[i].day < out[j].day
    {
      assert out[j] == bs[j - 1];
      if i > 0 {
        assert out[i] == bs[i - 1];
      }
    }
  }

  /** Adds one booking of total `v` on `day` to a chronological series. */
  function AddToSeries(bs: seq<Bucket>, day: int, v: real): (out: seq<Bucket>)
    requires Chronological(bs) && NoEmptyBuckets(bs)
    ensures Chronological(out) && NoEmptyBuckets(out)
    ensures out != [] && out[0].day == (if bs == [] || day < bs[0].day then day else bs[0].day)
    ensures forall d :: CountAt(out, d) == CountAt(bs, d) + (if d == day then 1 else 0)
    ensures forall d :: RevenueAt(out, d) == RevenueAt(bs, d) + (if d == day then v else 0.0)
  {
    if bs == [] then
      ChronologicalCons(Bucket(day, 1, v), bs);
      [Bucket(day, 1, v)] + bs
    else if day < bs[0].day then
      NothingBeforeFirst(bs, day);
      ChronologicalCons(Bucket(day, 1, v), bs);
      [Bucket(day, 1, v)] + bs
    else
      var tail := bs[1..];
      assert bs == [bs[0]] + tail;
      assert Chronological(tail) && NoEmptyBuckets(tail);
      if day == bs[0].day then
        NothingBeforeFirst(tail, day);
        var b := bs[0].(count := bs[0].count + 1, revenue := bs[0].revenue + v);
        ChronologicalCons(b, tail);
        ChronologicalCons(bs[0], tail);
        [b] + tail
      else
        var rest := AddToSeries(tail, day, v);
        ChronologicalCons(bs[0], rest);
        ChronologicalCons(bs[0], tail);
        [bs[0]] + rest
  }

  /** `GroupBy(r => r.DataInicio.Date)` over the windowed rows, one point
      per day in chronological order. */
  function Series(rows: seq<Reservation>, now: int): (bs: seq<Bucket>)
    ensures Chronological(bs) && NoEmptyBuckets(bs)
    ensures forall d :: CountAt(bs, d) == CountOn(rows, now, d)
    ensures forall d :: RevenueAt(bs, d) == RevenueOn(rows, now, d)
  {
    if rows == [] then []
    else
      var rest := Series(rows[1..], now);
      if InChartWindow(rows[0], now) then AddToSeries(rest, DayOf(rows[0].start), rows[0].total)
      else rest
  }

  /** A point of the series is a day some windowed booking starts on. */
  lemma SeriesDaysAreBookedDays(rows: seq<Reservation>, now: int, i: int)
    requires 0 <= i < |Series(rows, now)|
    ensures CountOn(rows, now, Series(rows, now)[i].day) > 0
  {
    var bs := Series(rows, now);
    PointShows(bs, i);
  }

  /** Each point of a chronological series is what the series shows for
      its day. */
  lemma {:induction false} PointShows(bs: seq<Bucket>, i: int)
    requires Chronological(bs) && 0 <= i < |bs|
    ensures CountAt(bs, bs[i].day) == bs[i].count
    ensures RevenueAt(bs, bs[i].day) == bs[i].revenue
  {
    if i > 0 {
      PointShows(bs[1..], i - 1);
    }
  }
}

=== FILE: status.dfy ===
/** `CalcularStatus` and the status filters of the reservation listing:
    the four lifecycle labels derived from a booking's interval and the
    current instant. */
module Status {
  import opened Text
  import opened Model

  datatype Status = Closed | Ongoing | Imminent | Upcoming

  /** The label the API shows for each status. */
  function Label(s: Status): string {
    match s
    case Closed => "Encerradas"
    case Ongoing => "Em andamento"
    case Imminent => "Futuras proximas"
    case Upcoming => "Futuras normais"
  }

  /** `CalcularStatus(dataInicio, dataFim, agora)`: closed once the end has
      passed, ongoing while `now` lies in the closed interval, imminent when
      the start is less than 24 hours away, upcoming otherwise. */
  function Classify(start: int, end: int, now: int): (s: Status)
    ensures s == Closed <==> end < now
    ensures s == Ongoing ==> start <= now <= end
    ensures s == Imminent ==> now < start < now + DAY && now <= end
    ensures s == Upcoming ==> now + DAY <= start && now <= end
  {
    if end < now then Closed
    else if start <= now && end >= now then Ongoing
    else if start - now < DAY then Imminent
    else Upcoming
  }

  /** A booking that starts exactly now is ongoing, not upcoming. */
  lemma StartingNowIsOngoing(start: int, end: int, now: int)
    requires end > start && start == now
    ensures Classify(start, end, now) == Ongoing
  {
  }

  /** The `Where` clause the listing applies for each status name. */
  predicate InFilter(s: Status, start: int, end: int, now: int) {
    match s
    case Closed => end < now
    case Ongoing => start <= now && end >= now
    case Imminent => start > now && start <= now + DAY
    case Upcoming => start > now + DAY
  }

  /** For a booking that does not end before it starts, exactly one of the
      four filters selects it. */
  lemma FiltersPartition(start: int, end: int, now: int)
    requires start <= end
    ensures InFilter(Closed, start, end, now) || InFilter(Ongoing, start, end, now)
         || InFilter(Imminent, start, end, now) || InFilter(Upcoming, start, end, now)
    ensures forall s1: Status, s2: Status ::
              InFilter(s1, start, end, now) && InFilter(s2, start, end, now) ==> s1 == s2
  {
  }

  /** The filters agree with `CalcularStatus` everywhere except a start
      exactly 24 hours away, which the imminent filter selects while the
      classifier calls it upcoming. */
  lemma FiltersAgreeWithClassify(s: Status, start: int, end: int, now: int)
    requires start <= end
    ensures start != now + DAY ==> (InFilter(s, start, end, now) <==> Classify(start, end, now) == s)
    ensures start == now + DAY ==> InFilter(Imminent, start, end, now) && Classify(start, end, now) == Upcoming
  {
  }

  /** The status a name selects in `GetReservas`: the exact label, case
      included.  A missing, empty or unknown name selects no filter. */
  function ParseExact(name: Option<string>): (f: Option<Status>)
    ensures f.Some? <==> name.Some? && exists s: Status :: Label(s) == name.value
    ensures f.Some? ==> Label(f.value) == name.value
  {
    if name.None? || name.value == "" then None
    else if name.value == Label(Closed) then Some(Closed)
    else if name.value == Label(Ongoing) then Some(Ongoing)
    else if name.value == Label(Imminent) then Some(Imminent)
    else if name.value == Label(Upcoming) then Some(Upcoming)
    else None
  }

  /** The labels are distinct, so a label names its status. */
  lemma ParseExactLabel(s: Status)
    ensures ParseExact(Some(Label(s))) == Some(s)
  {
  }
}

=== FILE: text.dfy ===
/** Text helpers the controllers rely on: .NET `string.Trim()` and the
    lower-casing used for case-insensitive comparisons. */
module Text {

  /** `char.IsWhiteSpace`: the Unicode space, line and paragraph separators
      together with U+0009..U+000D and U+0085. */
  predicate IsWhiteSpace(c: char) {
    || c == ' '
    || ('\t' <= c <= '\r')
    || c == '\U{85}'
    || c == '\U{A0}'
    || c == '\U{1680}'
    || ('\U{2000}' <= c <= '\U{200A}')
    || c == '\U{2028}'
    || c == '\U{2029}'
    || c == '\U{202F}'
    || c == '\U{205F}'
    || c == '\U{3000}'
  }

  /** True when every character of `s` is white space (also for ""). */
  predicate AllWhiteSpace(s: string) {
    forall i :: 0 <= i < |s| ==> IsWhiteSpace(s[i])
  }

  /** The index of the first non-white character at or after `i`, or `|s|`
      when only white space follows. */
  function SkipWhiteSpace(s: string, i: nat): (j: nat)
    requires i <= |s|
    ensures i <= j <= |s|
    ensures forall k :: i <= k < j ==> IsWhiteSpace(s[k])
    ensures j == |s| || !IsWhiteSpace(s[j])
    decreases |s| - i
  {
    if i == |s| || !IsWhiteSpace(s[i]) then i else SkipWhiteSpace(s, i + 1)
  }

  /** Scanning down from `j` to `a`, the index just past the last non-white
      character, or `a` when only white space lies between them. */
  function SkipWhiteSpaceBack(s: string, a: nat, j: nat): (e: nat)
    requires a <= j <= |s|
    ensures a <= e <= j
    ensures forall k :: e <= k < j ==> IsWhiteSpace(s[k])
    ensures e == a || !IsWhiteSpace(s[e - 1])
    decreases j
  {
    if j == a || !IsWhiteSpace(s[j - 1]) then j else SkipWhiteSpaceBack(s, a, j - 1)
  }

  /** `string.Trim()`: the infix of `s` between its leading and its trailing
      run of white space.  It is empty exactly when `s` is all white space,
      which is what the `[Required]` annotation rejects. */
  function Trim(s: string): (r: string)
    ensures |r| <= |s|
    ensures r == [] <==> AllWhiteSpace(s)
    ensures r == [] || (!IsWhiteSpace(r[0]) && !IsWhiteSpace(r[|r| - 1]))
    ensures exists a, e :: 0 <= a <= e <= |s| && r == s[a..e] && AllWhiteSpace(s[..a]) && AllWhiteSpace(s[e..])
  {
    var a := SkipWhiteSpace(s, 0);
    var e := SkipWhiteSpaceBack(s, a, |s|);
    assert AllWhiteSpace(s[..a]) && AllWhiteSpace(s[e..]);
    s[a..e]
  }

  /** Trimming a trimmed string changes nothing. */
  lemma TrimIdempotent(s: string)
    ensures Trim(Trim(s)) == Trim(s)
  {
    var r := Trim(s);
    if r != [] {
      assert SkipWhiteSpace(r, 0) == 0;
      assert SkipWhiteSpaceBack(r, 0, |r|) == |r|;
    }
  }

  /** ASCII upper-case letters map to their lower-case forms; everything else
      is kept. */
  function LowerChar(c: char): (d: char)
    ensures ('A' <= c <= 'Z') ==> 'a' <= d <= 'z' && d as int - c as int == 32
    ensures !('A' <= c <= 'Z') ==> d == c
  {
    if 'A' <= c <= 'Z' then (c as int + 32) as char else c
  }

  /** `string.ToLower()` restricted to ASCII letters. */
  function Lower(s: string): (r: string)
    ensures |r| == |s|
    ensures forall i :: 0 <= i < |s| ==> r[i] == LowerChar(s[i])
  {
    if s == [] then [] else [LowerChar(s[0])] + Lower(s[1..])
  }

  /** Lower-casing is idempotent, so an already lower-case name is its own
      folded form. */
  lemma LowerIdempotent(s: string)
    ensures Lower(Lower(s)) == Lower(s)
  {
    assert forall i :: 0 <= i < |s| ==> LowerChar(LowerChar(s[i])) == LowerChar(s[i]);
  }
}
